=== FILE: README.md ===
# RUT engine (rutpy) in Dafny

This project models `rutpy/core/rut.py`. That module handles the Chilean *Rol Único Tributario* (RUT):
a decimal body followed by one check character (`0`–`9` or `K`), computed by a modulo-11 scheme and
usually printed with thousands dots and a dash, as in `35.114.652-4`. The module has five operations:

- `clean` strips a RUT down to its characters `0-9kK`. The substitution is `^0+|[^0-9kK]+` → `""`.
  It is modelled as the function `Normalizer.Clean`: the run of `'0'` at input index 0 goes, then
  every character outside `0-9kK`.
- `get_check_digit` computes the check character in closed form: a weighted sum of the digits
  (weights 2..7, repeating from the right), then `11 - sum % 11`, with 10 written `K` and 11
  written `0`. It is modelled as the function `Checksum.GetCheckDigit`. Python's `ValueError` is
  the `Failure` case of a `Result`.
- `validate` checks the shape with a regular expression, cleans the input, then recomputes the
  check character with a second loop formulation. It is modelled as the method `Validator.Validate`.
  The loop is the method `Validator.ModElevenLoop`. The pattern is a family of recursive predicates.
- `format_rut` puts the thousands dots and the dash back. It is modelled as the method
  `Formatter.FormatRut`, with its prepend loop in `Formatter.Punctuate`. Python's slice clamping is
  written out with `Max0`. `IndexError` on an empty cleaned value is the `Failure` case.
- `generate` draws random bodies and formats each with its check character. It is modelled as the
  method `Generator.Generate`. The random numbers are a parameter.

Each method is proved against a specification function: `Formatted` for `format_rut`, `Accepts` for
`validate`, `CheckDigitOf` for the loop of `validate`, and `RutFor` for `generate`. The properties
of those functions are proved as lemmas. The main ones are:

- the loop of `validate` and the closed form of `get_check_digit` agree on every digit body;
- every value `generate` can produce is accepted by `validate`, and so is every digit body without
  a leading `'0'` followed by its computed check symbol, in any of the four print styles (a
  lower-case `k` as check character is rejected);
- deleting the dots and the dash from the output of `format_rut` gives back the cleaned input;
- for a cleaned input of two or more characters, cleaning that output gives it back exactly when it
  does not start with `'0'`; the one-character `"0"` is printed `"-0"`, which cleans back to `"0"`,
  or `"0"` without the dash, which cleans to `""`;
- when the cleaned input does not start with `'0'`, cleaning and formatting a formatted value again
  changes nothing;
- dropping a separator from the input leaves `get_check_digit` unchanged as long as the input
  without it does not clean to the empty value (`".0"` has a check symbol, `"0"` has none);
- the check character catches every single-digit error;
- `clean` is idempotent exactly when the cleaned value does not start with `'0'`.

Behaviour of the code that its docstrings do not show, followed by the model:

- The docstring of `clean` (rutpy/core/rut.py:26) says it removes all non-numeric characters. The
  substitution at rutpy/core/rut.py:38 keeps `k` and `K`, and it also removes the run of `'0'` at
  index 0, which is numeric: `clean("05-k")` is `"5k"` (`Normalizer.CleanKeepsLetterDropsZero`).
- `clean` (rutpy/core/rut.py:38) is not idempotent: `clean(".012")` is `"012"`, and cleaning that
  again gives `"12"` (`Normalizer.CleanNotIdempotent`).
- `clean` does not undo `format_rut` (rutpy/core/rut.py:130-141) when the cleaned value starts with
  `'0'`: `".012"` cleans to `"012"`, which is printed `"01-2"`, and that cleans to `"12"` and is
  printed `"1-2"` (`Formatter.FormatNotStable`).
- The docstring of `generate` (rutpy/core/rut.py:152-153) says a single RUT is returned as a string.
  The code returns a one-element list (rutpy/core/rut.py:163-164), and the model does the same.

Files: `outcome.dfy` (errors), `digits.dfy` (`int()` and `str()` on ASCII digits), `normalizer.dfy`,
`checksum.dfy`, `validator.dfy`, `formatter.dfy` and `generator.dfy`.

## Model

| member | source | states |
|---|---|---|
| Digits.IsDigit | rutpy/core/rut.py:60 | `\d` of the pattern and `0-9` of the substitution, read as the ASCII digits |
| Digits.DigitValue | rutpy/core/rut.py:93 | `int()` of one ASCII digit is at most 9, and it is 0 exactly for `'0'` |
| Digits.DigitChar | rutpy/core/rut.py:73 | `str(d)` for `d <= 9` is one digit whose value is `d` |
| Digits.NumberOf | rutpy/core/rut.py:64 | `int()` of a string of `k` ASCII digits, read most significant first, is below `10^k` |
| Digits.NatToString | rutpy/core/rut.py:158 | `str(n)` is a non-empty digit string, with no leading `'0'` when `n > 0` |
| Digits.NumberOfNatToString | rutpy/core/rut.py:158 | `int(str(n)) == n` |
| Digits.NatToStringLength | rutpy/core/rut.py:157-158 | `str(n)` has `k + 1` digits when `10^k <= n < 10^(k+1)` |
| Normalizer.IsRutChar | rutpy/core/rut.py:38 | the class `[0-9kK]` that `clean` keeps, also `[\dkK]` of the pattern at rutpy/core/rut.py:60 |
| Normalizer.LeadingZeros | rutpy/core/rut.py:38 | the run `^0+` removes is all `'0'` and is followed by the end or a non-`'0'` |
| Normalizer.KeepRutChars | rutpy/core/rut.py:38 | what `[^0-9kK]+` leaves holds only `0-9kK` and is no longer than the input |
| Normalizer.Clean | rutpy/core/rut.py:25-38 | the cleaned value holds only `0-9kK` and is no longer than the input |
| Normalizer.KeepRutCharsOfRutString | rutpy/core/rut.py:38 | a string of `0-9kK` passes the filter unchanged |
| Normalizer.KeepRutCharsAppend | rutpy/core/rut.py:38 | the filter distributes over concatenation, so it keeps the characters in their order |
| Normalizer.KeepRutCharsAppendOther | rutpy/core/rut.py:38 | a character outside `0-9kK` contributes nothing |
| Normalizer.CleanNoLeadingZero | rutpy/core/rut.py:38 | without a `'0'` at index 0, `clean` only filters |
| Normalizer.CleanFixedPoint | rutpy/core/rut.py:38 | `clean(s) == s` exactly when `s` is `0-9kK` only and does not start with `'0'` |
| Normalizer.CleanIdempotentIff | rutpy/core/rut.py:38 | cleaning twice equals cleaning once exactly when the cleaned value does not start with `'0'` |
| Normalizer.CleanNotIdempotent | rutpy/core/rut.py:38 | `".012"` cleans to `"012"` and then to `"12"`: `^0+` fires only at index 0 |
| Normalizer.CleanKeepsLetterDropsZero | rutpy/core/rut.py:26-38 | `clean("05-k") == "5k"`: the letter is kept and the numeric leading `'0'` removed |
| Normalizer.KeepSplitsAtZeroRun | rutpy/core/rut.py:38 | the filter alone keeps the run `^0+` removes, all `'0'`, followed by `clean`'s result |
| Normalizer.SeparatorLeadingZeros | rutpy/core/rut.py:38 | a character outside `0-9kK` can only shorten the run `^0+` removes |
| Normalizer.CleanAcrossSeparator | rutpy/core/rut.py:38 | dropping a separator from the input changes `clean`'s result at most by `'0'` characters in front |
| Normalizer.KeepAcrossSeparator | rutpy/core/rut.py:38 | a separator before a run of `0-9kK` is dropped and the run is kept |
| Normalizer.CleanDottedBody | rutpy/core/rut.py:38 | a body written with two dots cleans to its digits |
| Normalizer.CleanPunctuated | rutpy/core/rut.py:38 | `D.DDD.DDD-C` cleans to its digits and check character |
| Normalizer.CleanExample | rutpy/core/rut.py:35-38 | `clean("35.114.652-4") == "351146524"` |
| Normalizer.CleanTestFirst | rutpy/tests/test_rut.py:5-9 | `clean("14.961.581-4") == "149615814"` |
| Normalizer.CleanTestSecond | rutpy/tests/test_rut.py:5-9 | `clean("15.001.650-9") == "150016509"`: zeros after a dot are kept |
| Normalizer.CleanTestThird | rutpy/tests/test_rut.py:5-9 | `clean("3.148.184-8") == "31481848"` |
| Checksum.Weight | rutpy/core/rut.py:99-102 | the weight `(index % 6) + 2` lies in 2..7 |
| Checksum.WeightedSum | rutpy/core/rut.py:99-102 | the sum of each digit times `(index % 6) + 2`, indices counted from the right; the row for `Checksum.WeightedSumOneDigitApart` states how it reacts to one digit |
| Checksum.CheckValue | rutpy/core/rut.py:106-111 | the value a check symbol stands for is at most 10 (`K` is 10) |
| Checksum.CheckSymbol | rutpy/core/rut.py:104-111 | `11 - sum % 11` mapped to a symbol is `0`-`9` or `K`, and its value brings the sum to a multiple of 11 |
| Checksum.CheckSymbolUnique | rutpy/core/rut.py:104-111 | no other check symbol brings the sum to a multiple of 11 |
| Checksum.CheckDigitOf | rutpy/core/rut.py:98-111 | the check symbol of a digit body is `0`-`9` or `K` and its value completes the weighted sum to a multiple of 11 |
| Checksum.GetCheckDigit | rutpy/core/rut.py:77-111 | succeeds exactly when the cleaned input is non-empty and all digits; `k`/`K` give `NotANumber` and an empty value gives `InvalidRut`; the symbol completes the weighted sum to a multiple of 11 |
| Checksum.ZerosWeighNothing | rutpy/core/rut.py:99-102 | a string of `'0'` has weighted sum 0 |
| Checksum.ZerosInFront | rutpy/core/rut.py:99-102 | `'0'` characters in front of a body leave its weighted sum unchanged |
| Checksum.SeparatorIgnored | rutpy/core/rut.py:93-111 | dropping a character outside `0-9kK` leaves `get_check_digit` unchanged when the rest does not clean to the empty value |
| Checksum.SeparatorProtectsZero | rutpy/core/rut.py:93-96 | the exception: `get_check_digit(".0")` is `0` while `get_check_digit("0")` raises `ValueError` |
| Checksum.WeightedSumOneDigitApart | rutpy/core/rut.py:99-102 | changing one digit changes the weighted sum by the change times that digit's weight |
| Checksum.NotMultipleOfModulus | rutpy/core/rut.py:98-104 | a non-zero digit change times a weight in 2..7 is never a multiple of 11 |
| Checksum.DetectsSingleDigitError | rutpy/core/rut.py:93-111 | two bodies differing in exactly one digit have different check symbols |
| Checksum.CheckDigitExample | rutpy/core/rut.py:90-91 | the check symbol of `60487586` is `2` |
| Checksum.TestBodyCheckDigit | rutpy/tests/test_rut.py:17-21 | the check symbol of `8421600` is `3` |
| Checksum.CheckDigitTestExample | rutpy/tests/test_rut.py:17-21 | `get_check_digit("8.421.600")` is `3`: the separators do not matter |
| Checksum.SecondTestBody | rutpy/tests/test_rut.py:17-21 | the check symbol of `8991701` is `8` |
| Checksum.CheckDigitTestSecond | rutpy/tests/test_rut.py:17-21 | `get_check_digit("8.991.701")` is `8` |
| Checksum.ThirdTestBody | rutpy/tests/test_rut.py:17-21 | the check symbol of `10452296` is `3` |
| Checksum.CheckDigitTestThird | rutpy/tests/test_rut.py:17-21 | `get_check_digit("10.452.296")` is `3` |
| Validator.Triples | rutpy/core/rut.py:60 | `(\.?\d{3})*`: groups of three ASCII digits, each optionally after a dot |
| Validator.LeadThenTriples | rutpy/core/rut.py:60 | `\d{1,3}` with a chosen length, followed by `(\.?\d{3})*` |
| Validator.DigitGroups | rutpy/core/rut.py:60 | `\d{1,3}(\.?\d{3})*`: some lead length of 1-3 works |
| Validator.BodyDashCheck | rutpy/core/rut.py:60 | `(\d{1,3}(\.?\d{3})*)-?([\dkK])`: the body, an optional `-`, and one check character |
| Validator.ZerosThenBody | rutpy/core/rut.py:60 | `0*` followed by the rest of the pattern |
| Validator.MatchesRutPattern | rutpy/core/rut.py:60 | `re.match` anchored by `^` and `$`, where `$` also accepts one final newline |
| Validator.StartsWithZero | rutpy/core/rut.py:57 | `rut.startswith('0')` |
| Validator.Accepts | rutpy/core/rut.py:57-74 | what `validate` returns: no leading `'0'`, the pattern matches, and the last cleaned character is what `get_check_digit` returns for the cleaned characters before it |
| Validator.TriplesKeepDigits | rutpy/core/rut.py:60-63 | what `clean` keeps of a `(\.?\d{3})*` match is all digits |
| Validator.DigitGroupsKeep | rutpy/core/rut.py:60-63 | what `clean` keeps of a `\d{1,3}(\.?\d{3})*` match is a non-empty digit string with the same first character |
| Validator.KeepBodyDash | rutpy/core/rut.py:60-63 | the same holds with the optional `-` after the body |
| Validator.KeepBodyDashCheck | rutpy/core/rut.py:60-63 | what `clean` keeps of the pattern's core is a digit body plus one `0-9kK` character |
| Validator.CleanedShape | rutpy/core/rut.py:57-64 | once the leading-`'0'` test and the pattern pass, the cleaned value is a non-empty digit body without leading zero plus one final character, so `int(rut[:-1])` and `rut[-1]` cannot fail |
| Validator.LowerCaseKRejected | rutpy/core/rut.py:73-74 | an accepted value never ends in a lower-case `k` |
| Validator.StepResidue | rutpy/core/rut.py:69 | the loop's weight `9 - m % 6` is congruent to minus the closed form's weight `m % 6 + 2` |
| Validator.ResidueSymbol | rutpy/core/rut.py:73 | `str(s - 1) if s > 0 else 'K'` on the final residue is the closed-form symbol |
| Validator.LoopStep | rutpy/core/rut.py:68-71 | one pass of the loop drops the last digit of `t`, keeps `s` in 0..10 and adds that digit with the next weight |
| Validator.ModElevenLoop | rutpy/core/rut.py:64-73 | the `while t > 0` loop yields the same symbol as `get_check_digit` on the body |
| Validator.ZeroValueZeroSum | rutpy/core/rut.py:68 | a body whose value is 0 contributes nothing to the sum, so stopping at `t == 0` loses nothing |
| Validator.Validate | rutpy/core/rut.py:41-74 | returns `Accepts(rut)`: no leading `'0'`, the pattern matches, and the last cleaned character is the check symbol of the rest |
| Formatter.Max0 | rutpy/core/rut.py:134-136 | Python's clamping of a negative slice start to 0 |
| Formatter.Without | rutpy/core/rut.py:141 | `str.replace(ch, '')`: every occurrence of `ch` deleted, the rest kept in order |
| Formatter.Grouped | rutpy/core/rut.py:134-136 | the body split into a lead group of 1-3 characters and then triples, joined by dots |
| Formatter.Formatted | rutpy/core/rut.py:130-141 | the body (grouped when `dots`), `-`, the check character, with `-` deleted when `dash` is false |
| Formatter.FormatRut | rutpy/core/rut.py:114-143 | an empty cleaned value fails with `IndexOutOfRange`; otherwise the result is `Formatted(clean(rut), dots, dash)` |
| Formatter.Punctuate | rutpy/core/rut.py:132-138 | the loop builds the (grouped) body, then `-`, then the check character |
| Formatter.GroupStep | rutpy/core/rut.py:135-136 | one pass of the loop puts the next group of up to three characters and a `.` in front |
| Formatter.WithoutAppend | rutpy/core/rut.py:141 | `replace` distributes over concatenation |
| Formatter.WithoutAbsent | rutpy/core/rut.py:141 | `replace` of an absent character changes nothing |
| Formatter.GroupedPrepend | rutpy/core/rut.py:135-136 | a group of 1-3 characters in front of whole triples is followed by one dot |
| Formatter.LeadLeavesTriples | rutpy/core/rut.py:134-136 | the leading group has 1-3 characters and leaves whole triples |
| Formatter.GroupedAvoids | rutpy/core/rut.py:133-136 | grouping adds no character other than `.` |
| Formatter.GroupedWithoutDots | rutpy/core/rut.py:133-136 | deleting the dots from a grouped body gives the body back |
| Formatter.GroupedKeepRutChars | rutpy/core/rut.py:130-136 | cleaning a grouped body gives the body back |
| Formatter.DottedGroupedTail | rutpy/core/rut.py:134-136 | after the leading group, a grouped body is dot-and-three-digit groups |
| Formatter.LeadThenDotted | rutpy/core/rut.py:134-136 | 1-3 characters and then dot-and-three-digit groups have the thousands shape |
| Formatter.GroupedShape | rutpy/core/rut.py:133-136 | a grouped body has a leading group of 1-3 characters and then groups of three, each after a dot |
| Formatter.WithoutBeforeLast | rutpy/core/rut.py:140-141 | `replace` touches only the separator before the check character |
| Formatter.PunctuatedBody | rutpy/core/rut.py:133-138 | the printed body has no `-`, and without its dots it is the body |
| Formatter.FormattedParts | rutpy/core/rut.py:132-141 | the output is the (grouped) body, the `-` when `dash`, and the check character |
| Formatter.FormattedStripsToClean | rutpy/core/rut.py:130-141 | deleting every `.` and `-` from the output gives the cleaned value |
| Formatter.StripDotsBeforeDash | rutpy/core/rut.py:130-141 | deleting dots and then dashes from a body, `-` and check gives body and check |
| Formatter.DottedFormatShape | rutpy/core/rut.py:133-136 | with dots and dash the output is a thousands-grouped body, `-`, and the check character |
| Formatter.PlainFormatIsClean | rutpy/core/rut.py:137-141 | without dots or dash the output is the cleaned value itself |
| Formatter.GroupedLength | rutpy/core/rut.py:134-136 | grouping adds `(n - 1) / 3` dots to `n` characters |
| Formatter.GroupedFirst | rutpy/core/rut.py:134-136 | grouping keeps the first character in front |
| Formatter.KeepOfFormatted | rutpy/core/rut.py:130-141 | filtering the output to `0-9kK` gives the cleaned value back |
| Formatter.CleanOfFormatted | rutpy/core/rut.py:130-141 | `clean` of the output is the cleaned input, in all four styles, when the cleaned input does not start with `'0'` |
| Formatter.CleanOfFormattedIff | rutpy/core/rut.py:130-141 | for two or more characters, `clean` of the output gives the cleaned input back exactly when it does not start with `'0'` |
| Formatter.FormatSingleZero | rutpy/core/rut.py:130-141 | the one-character value `"0"` is printed `"-0"`, which cleans back to `"0"`, or `"0"` without the dash, which cleans to the empty value |
| Formatter.FormatIdempotent | rutpy/core/rut.py:130-141 | with dots and dash, cleaning and formatting a formatted value again changes nothing, when the cleaned value does not start with `'0'` |
| Formatter.FormatNotStable | rutpy/core/rut.py:130-141 | `".012"` cleans to `"012"`, printed `"01-2"`, which cleans to `"12"`, printed `"1-2"` |
| Formatter.GroupedThreeGroups | rutpy/core/rut.py:134-136 | a lead group and two triples are joined by two dots |
| Formatter.FormattedThreeGroups | rutpy/core/rut.py:130-141 | a lead group, two triples and a check character are printed `D.DDD.DDD-C` |
| Formatter.ReformatThreeGroups | rutpy/core/rut.py:130-141 | a value printed `D.DDD.DDD-C` without leading `'0'` cleans to its characters and is printed back unchanged |
| Formatter.FormatExample | rutpy/core/rut.py:126-127 | `351146524` is printed `35.114.652-4` |
| Formatter.FormattedTestExample | rutpy/tests/test_rut.py:23-27 | `173359950` is printed `17.335.995-0` |
| Formatter.CleanedTestExample | rutpy/tests/test_rut.py:23-27 | `17.335.995-0` cleans to `173359950` |
| Formatter.FormatTestExample | rutpy/tests/test_rut.py:23-27 | `17.335.995-0` is printed back unchanged |
| Formatter.FormatTestSecond | rutpy/tests/test_rut.py:23-27 | `20.709.073-5` cleans to `207090735` and is printed back unchanged |
| Generator.RutFor | rutpy/core/rut.py:157-160 | one generated RUT: `str(n)` completed with its check symbol and printed with dots and dash |
| Generator.DottedTripleInFront | rutpy/core/rut.py:60 | a dot and three digits in front of `(\.?\d{3})*` still match it |
| Generator.DottedGroupsAreTriples | rutpy/core/rut.py:60 | grouped whole triples of digits, after a dot, match `(\.?\d{3})*` |
| Generator.LeadInFront | rutpy/core/rut.py:60 | 1-3 digits, a dot and a `(\.?\d{3})*` match make a `\d{1,3}(\.?\d{3})*` match |
| Generator.GroupedDigitGroups | rutpy/core/rut.py:60 | a grouped digit body matches `\d{1,3}(\.?\d{3})*` |
| Generator.PlainTriples | rutpy/core/rut.py:60 | undotted whole triples of digits match `(\.?\d{3})*` |
| Generator.PlainDigitGroups | rutpy/core/rut.py:60 | an undotted digit body matches `\d{1,3}(\.?\d{3})*` |
| Generator.PunctuatedDigitGroups | rutpy/core/rut.py:60 | with or without dots, the printed body matches and keeps its first digit |
| Generator.CheckDigitOfNumeral | rutpy/core/rut.py:159 | `get_check_digit(str(n))` succeeds with the closed-form symbol |
| Generator.CleanOfCompleted | rutpy/core/rut.py:160 | a digit body plus its check symbol is already clean |
| Generator.FormattedRutAccepted | rutpy/core/rut.py:41-74 | a body without leading zero, completed with its check symbol and printed in any style, is accepted by `validate` |
| Generator.DocstringCheckDigit | rutpy/core/rut.py:51-52 | the check symbol of `4612837` is `0` |
| Generator.DocstringRutAccepted | rutpy/core/rut.py:51-52 | `validate("4612837-0")` holds |
| Generator.SuiteCheckDigit | rutpy/tests/test_rut.py:11-15 | the check symbol of `5250755` is `3` |
| Generator.SuiteFormat | rutpy/tests/test_rut.py:11-15 | `52507553` is printed `5.250.755-3` |
| Generator.SuiteRutAccepted | rutpy/tests/test_rut.py:11-15 | `validate("5.250.755-3")` holds |
| Generator.DottedRutAccepted | rutpy/core/rut.py:41-74 | a body of 1-3 digits and two triples without leading zero, printed with dots, dash and its check symbol, is accepted by `validate` |
| Generator.SuiteSecondCheckDigit | rutpy/tests/test_rut.py:11-15 | the check symbol of `14461448` is `8` |
| Generator.SuiteSecondRutAccepted | rutpy/tests/test_rut.py:11-15 | `validate("14.461.448-8")` holds |
| Generator.SuiteThirdCheckDigit | rutpy/tests/test_rut.py:11-15 | the check symbol of `20351114` is `0` |
| Generator.SuiteThirdRutAccepted | rutpy/tests/test_rut.py:11-15 | `validate("20.351.114-0")` holds |
| Generator.DrawnNumeralLength | rutpy/core/rut.py:157-158 | `str()` of a number in [1000000, 25000000] has 7 or 8 digits |
| Generator.CompletedShape | rutpy/core/rut.py:160 | a body plus a check character, printed with dots and dash, is grouped body, `-`, check, and cleans back |
| Generator.GeneratedShape | rutpy/core/rut.py:155-161 | every generated RUT is `D.DDD.DDD-C` or `DD.DDD.DDD-C` and cleans to the drawn number and its check symbol |
| Generator.GeneratedAccepted | rutpy/core/rut.py:155-161 | every generated RUT is accepted by `validate` |
| Generator.Generate | rutpy/core/rut.py:146-166 | returns `max(num, 0)` RUTs, the `k`-th formatted from the `k`-th draw and its check symbol; one draw gives a one-element list |

## Left out

- `random.randint` (rutpy/core/rut.py:157) is not modelled. `Generator.Generate` takes the drawn numbers as the parameter `draws`, each required to lie in [1000000, 25000000].
- The `isinstance(rut, str)` guard (rutpy/core/rut.py:54-55) is not modelled: the argument's type makes it vacuous.
- The regular-expression engine is not modelled. The pattern at rutpy/core/rut.py:60 is written as recursive predicates over ASCII. Python's `\d` also matches non-ASCII decimal digits, which `clean` then drops; the model's `\d` is `0-9` only, so it assumes ASCII input. Where the input holds such digits the results differ: Python's `validate("١-5")` raises `ValueError` (the body cleans to `""` and `int("")` fails) and `validate("1.٢٣٤-9")` returns true (the check is computed over `"1"` only), while the model's `Validate` returns false for both. `$` before a final newline is modelled.
- The `x != x` test at rutpy/core/rut.py:95 is not modelled. It looks for NaN, and `int()` never yields NaN.
- Exceptions carry no message text. `ValueError` (rutpy/core/rut.py:96, and `int()` on `k`/`K`) and `IndexError` (`rut[-1]` on an empty value) become `Failure` values.
- rutpy/setup.py is not part of this model: it holds only packaging metadata.
- The unit tests themselves are not modelled. `test_generate` passes the list from `generate` straight to `validate` (rutpy/tests/test_rut.py:29-31), which returns `False` for a non-string. The model proves acceptance of each generated element instead.
- Generator.Generate: its `ensures` does not state acceptance by `validate`. That property is the lemma `Generator.GeneratedAccepted`, which applies to every element `Generate` returns.

=== FILE: checksum.dfy ===
/** `get_check_digit` (rutpy/core/rut.py:77-111): the closed-form modulo-11 check symbol. */
module Checksum {
  import opened Digits
  import opened Outcome
  import opened Normalizer

  const MODULUS := 11

  /** Weight of the digit at `index`, counted from the right starting at 0: 2, 3, ..., 7, 2, 3, ... */
  function Weight(index: nat): (w: nat)
    ensures 2 <= w <= 7
  {
    index % 6 + 2
  }

  /** `get_check_digit`'s sum (rutpy/core/rut.py:99-102): each digit times `(index % 6) + 2`,
      indices counted from the right and starting at `index` instead of 0. */
  function WeightedSum(digits: string, index: nat): nat
    requires AllDigits(digits)
    decreases |digits|
  {
    if digits == [] then 0
    else DigitValue(digits[|digits| - 1]) * Weight(index) + WeightedSum(digits[..|digits| - 1], index + 1)
  }

  /** The symbols a check character can take: '0'..'9' and upper-case 'K'. */
  predicate IsCheckSymbol(c: char) {
    IsDigit(c) || c == 'K'
  }

  /** The number a check symbol stands for: 'K' is 10. */
  function CheckValue(c: char): (v: nat)
    requires IsCheckSymbol(c)
    ensures v <= 10
  {
    if c == 'K' then 10 else DigitValue(c)
  }

  /** `11 - sum % 11`, with 10 written 'K' and 11 written '0': the symbol that brings
      the weighted sum up to a multiple of 11. */
  function CheckSymbol(sum: nat): (c: char)
    ensures IsCheckSymbol(c)
    ensures (sum + CheckValue(c)) % MODULUS == 0
  {
    var checkDigit := MODULUS - sum % MODULUS;
    if checkDigit == 10 then 'K'
    else if checkDigit == 11 then '0'
    else DigitChar(checkDigit)
  }

  /** No other check symbol completes the sum to a multiple of 11. */
  lemma CheckSymbolUnique(sum: nat, c: char)
    requires IsCheckSymbol(c) && (sum + CheckValue(c)) % MODULUS == 0
    ensures c == CheckSymbol(sum)
  {
    var d := CheckSymbol(sum);
    assert (CheckValue(c) - CheckValue(d)) % MODULUS == 0;
    assert CheckValue(c) == CheckValue(d);
    if c != 'K' && d != 'K' {
      assert DigitChar(DigitValue(c)) == c;
      assert DigitChar(DigitValue(d)) == d;
    }
  }

  /** The check symbol of a string of digits. */
  function CheckDigitOf(digits: string): (c: char)
    requires AllDigits(digits)
    ensures IsCheckSymbol(c)
    ensures (WeightedSum(digits, 0) + CheckValue(c)) % MODULUS == 0
  {
    CheckSymbol(WeightedSum(digits, 0))
  }

  /** `get_check_digit`: clean, convert every character with `int()` (which fails on 'k' and 'K'),
      reject an empty value, then compute the check symbol. */
  function GetCheckDigit(input: string): (r: Result<char>)
    ensures r.Success? <==> Clean(input) != [] && AllDigits(Clean(input))
    ensures !AllDigits(Clean(input)) ==> r == Failure(NotANumber)
    ensures Clean(input) == [] ==> r == Failure(InvalidRut)
    ensures r.Success? ==> IsCheckSymbol(r.value)
    ensures r.Success? ==> (WeightedSum(Clean(input), 0) + CheckValue(r.value)) % MODULUS == 0
  {
    var rut := Clean(input);
    if !AllDigits(rut) then Failure(NotANumber)
    else if rut == [] then Failure(InvalidRut)
    else Success(CheckDigitOf(rut))
  }

  /** '0' digits weigh nothing, wherever the enumeration starts. */
  lemma {:induction false} ZerosWeighNothing(z: string, index: nat)
    requires AllZeros(z)
    ensures AllDigits(z) && WeightedSum(z, index) == 0
    decreases |z|
  {
    if z != [] {
      ZerosWeighNothing(z[..|z| - 1], index + 1);
    }
  }

  /** '0' digits in front of a body leave its weighted sum unchanged. */
  lemma {:induction false} ZerosInFront(z: string, c: string, index: nat)
    requires AllZeros(z) && AllDigits(c)
    ensures AllDigits(z + c) && WeightedSum(z + c, index) == WeightedSum(c, index)
    decreases |c|
  {
    if c == [] {
      assert z + c == z;
      ZerosWeighNothing(z, index);
    } else {
      var zc := z + c;
      assert zc[..|zc| - 1] == z + c[..|c| - 1];
      assert zc[|zc| - 1] == c[|c| - 1];
      ZerosInFront(z, c[..|c| - 1], index + 1);
    }
  }

  /** Separators in the input do not matter: dropping one leaves `get_check_digit` unchanged, as long
      as the input without it does not clean to the empty value. */
  lemma SeparatorIgnored(x: string, sep: char, y: string)
    requires !IsRutChar(sep) && Clean(x + y) != []
    ensures GetCheckDigit(x + [sep] + y) == GetCheckDigit(x + y)
  {
    CleanAcrossSeparator(x, sep, y);
    var c1, c2 := Clean(x + [sep] + y), Clean(x + y);
    var z := c1[..|c1| - |c2|];
    assert c1 == z + c2;
    if AllDigits(c2) {
      ZerosInFront(z, c2, 0);
    } else {
      var j :| 0 <= j < |c2| && !IsDigit(c2[j]);
      assert c1[|z| + j] == c2[j];
    }
  }

  /** The exception: a separator in front of '0' protects it from the run `^0+` removes, so `".0"`
      has a check symbol while `"0"` is rejected as empty. */
  lemma SeparatorProtectsZero(a: string, b: string)
    requires a == ".0" && b == "0"
    ensures GetCheckDigit(a) == Success('0')
    ensures GetCheckDigit(b) == Failure(InvalidRut)
  {
    assert LeadingZeros(a) == 0;
    assert KeepRutChars(a) == "0" by {
      assert a[1..] == "0";
      assert "0"[1..] == [];
    }
    assert WeightedSum("0", 0) == 0 by {
      assert "0"[..0] == [];
    }
    assert LeadingZeros(b) == 1 by {
      assert b[1..] == [];
    }
    assert b[1..] == [];
  }

  /** Changing one digit changes the weighted sum by that digit's change times its weight. */
  lemma {:induction false} WeightedSumOneDigitApart(a: string, b: string, i: nat, index: nat)
    requires AllDigits(a) && AllDigits(b) && |a| == |b| && i < |a|
    requires forall j :: 0 <= j < |a| && j != i ==> a[j] == b[j]
    ensures WeightedSum(a, index) as int - WeightedSum(b, index) as int
            == (DigitValue(a[i]) as int - DigitValue(b[i]) as int) * Weight(index + |a| - 1 - i)
    decreases |a|
  {
    var n := |a|;
    var w := Weight(index);
    var va: int, vb: int := DigitValue(a[n - 1]), DigitValue(b[n - 1]);
    var pa, pb := a[..n - 1], b[..n - 1];
    var ra: int, rb: int := WeightedSum(pa, index + 1), WeightedSum(pb, index + 1);
    var ta, tb := va * w, vb * w;
    assert WeightedSum(a, index) == ta + ra;
    assert WeightedSum(b, index) == tb + rb;
    var e: int := DigitValue(a[i]) as int - DigitValue(b[i]) as int;
    if i == n - 1 {
      assert pa == pb;
      assert va * w - vb * w == (va - vb) * w;
    } else {
      assert pa[i] == a[i] && pb[i] == b[i];
      assert forall j :: 0 <= j < |pa| && j != i ==> pa[j] == pb[j];
      WeightedSumOneDigitApart(pa, pb, i, index + 1);
      assert index + 1 + |pa| - 1 - i == index + |a| - 1 - i;
      assert ra - rb == e * Weight(index + |a| - 1 - i);
      assert ta == tb;
    }
  }

  /** A non-zero digit change times a weight between 2 and 7 is never a multiple of 11. */
  lemma NotMultipleOfModulus(e: int, w: nat)
    requires -9 <= e <= 9 && e != 0 && 2 <= w <= 7
    ensures (e * w) % MODULUS != 0
  {
    if w == 2 { assert e * w == e + e; }
    else if w == 3 { assert e * w == e + e + e; }
    else if w == 4 { assert e * w == e + e + e + e; }
    else if w == 5 { assert e * w == e + e + e + e + e; }
    else if w == 6 { assert e * w == e + e + e + e + e + e; }
    else { assert e * w == e + e + e + e + e + e + e; }
  }

  /** The check symbol detects every single-digit transcription error. */
  lemma DetectsSingleDigitError(a: string, b: string, i: nat)
    requires AllDigits(a) && AllDigits(b) && |a| == |b| && i < |a|
    requires a[i] != b[i]
    requires forall j :: 0 <= j < |a| && j != i ==> a[j] == b[j]
    ensures CheckDigitOf(a) != CheckDigitOf(b)
  {
    var sa: int, sb: int := WeightedSum(a, 0), WeightedSum(b, 0);
    var e: int := DigitValue(a[i]) as int - DigitValue(b[i]) as int;
    var w := Weight(|a| - 1 - i);
    WeightedSumOneDigitApart(a, b, i, 0);
    NotMultipleOfModulus(e, w);
    var change := e * w;
    assert sa - sb == change;
    var v: int := CheckValue(CheckDigitOf(a));
    ModDifference(sa + v, change);
    assert (sb + v) % MODULUS != 0;
  }

  /** Subtracting a non-multiple of 11 from a multiple of 11 leaves a non-multiple (kept apart from
      `DetectsSingleDigitError`, whose context holds the nonlinear weighted sums). */
  lemma ModDifference(x: int, y: int)
    requires x % MODULUS == 0 && y % MODULUS != 0
    ensures (x - y) % MODULUS != 0
  {
    assert x == MODULUS * (x / MODULUS);
  }

  lemma CheckDigitExample(digits: string)
    requires digits == "60487586"
    ensures AllDigits(digits) && CheckDigitOf(digits) == '2'
  {
    assert WeightedSum(digits[..0], 8) == 0;
    assert WeightedSum(digits[..1], 7) == 18 by { assert digits[..1][..0] == digits[..0]; }
    assert WeightedSum(digits[..2], 6) == 18 by { assert digits[..2][..1] == digits[..1]; }
    assert WeightedSum(digits[..3], 5) == 46 by { assert digits[..3][..2] == digits[..2]; }
    assert WeightedSum(digits[..4], 4) == 94 by { assert digits[..4][..3] == digits[..3]; }
    assert WeightedSum(digits[..5], 3) == 129 by { assert digits[..5][..4] == digits[..4]; }
    assert WeightedSum(digits[..6], 2) == 149 by { assert digits[..6][..5] == digits[..5]; }
    assert WeightedSum(digits[..7], 1) == 173 by { assert digits[..7][..6] == digits[..6]; }
    assert WeightedSum(digits, 0) == 185 by { assert digits[..7] == digits[..|digits| - 1]; }
  }

  /** The weighted sum of `8421600` is 85, so its check symbol is `11 - 8`. */
  lemma TestBodyCheckDigit(ds: string)
    requires ds == "8421600"
    ensures AllDigits(ds) && CheckDigitOf(ds) == '3'
  {
    assert WeightedSum(ds[..0], 7) == 0;
    assert WeightedSum(ds[..1], 6) == 16 by { assert ds[..1][..0] == ds[..0]; }
    assert WeightedSum(ds[..2], 5) == 44 by { assert ds[..2][..1] == ds[..1]; }
    assert WeightedSum(ds[..3], 4) == 56 by { assert ds[..3][..2] == ds[..2]; }
    assert WeightedSum(ds[..4], 3) == 61 by { assert ds[..4][..3] == ds[..3]; }
    assert WeightedSum(ds[..5], 2) == 85 by { assert ds[..5][..4] == ds[..4]; }
    assert WeightedSum(ds[..6], 1) == 85 by { assert ds[..6][..5] == ds[..5]; }
    assert WeightedSum(ds, 0) == 85 by { assert ds[..6] == ds[..|ds| - 1]; }
  }

  /** The first value of the package's test of `get_check_digit`: the dots are cleaned away. */
  lemma CheckDigitTestExample(input: string)
    requires input == "8.421.600"
    ensures GetCheckDigit(input) == Success('3')
  {
    var a, b, c := "8", "421", "600";
    assert input == a + ['.'] + b + ['.'] + c;
    CleanDottedBody(a, b, c);
    var ds := a + b + c;
    assert ds == "8421600";
    TestBodyCheckDigit(ds);
  }

  /** The weighted sum of `8991701` is 168 = 11 * 15 + 3, so its check symbol is `11 - 3`. */
  lemma SecondTestBody(ds: string)
    requires ds == "8991701"
    ensures AllDigits(ds) && CheckDigitOf(ds) == '8'
  {
    assert WeightedSum(ds[..0], 7) == 0;
    assert WeightedSum(ds[..1], 6) == 16 by { assert ds[..1][..0] == ds[..0]; }
    assert WeightedSum(ds[..2], 5) == 79 by { assert ds[..2][..1] == ds[..1]; }
    assert WeightedSum(ds[..3], 4) == 133 by { assert ds[..3][..2] == ds[..2]; }
    assert WeightedSum(ds[..4], 3) == 138 by { assert ds[..4][..3] == ds[..3]; }
    assert WeightedSum(ds[..5], 2) == 166 by { assert ds[..5][..4] == ds[..4]; }
    assert WeightedSum(ds[..6], 1) == 166 by { assert ds[..6][..5] == ds[..5]; }
    assert WeightedSum(ds, 0) == 168 by { assert ds[..6] == ds[..|ds| - 1]; }
  }

  /** The second value of the package's test of `get_check_digit`. */
  lemma CheckDigitTestSecond(input: string)
    requires input == "8.991.701"
    ensures GetCheckDigit(input) == Success('8')
  {
    var head, mid, last := "8", "991", "701";
    assert input == head + ['.'] + mid + ['.'] + last && head + mid + last == "8991701" by {
      assert input == "8" + ['.'] + "991" + ['.'] + "701";
    }
    CleanDottedBody(head, mid, last);
    SecondTestBody(head + mid + last);
  }

  /** The weighted sum of `10452296` is 118 = 11 * 10 + 8, so its check symbol is `11 - 8`. */
  lemma ThirdTestBody(ds: string)
    requires ds == "10452296"
    ensures AllDigits(ds) && CheckDigitOf(ds) == '3'
  {
    assert WeightedSum(ds[..0], 8) == 0;
    assert WeightedSum(ds[..1], 7) == 3 by { assert ds[..1][..0] == ds[..0]; }
    assert WeightedSum(ds[..2], 6) == 3 by { assert ds[..2][..1] == ds[..1]; }
    assert WeightedSum(ds[..3], 5) == 31 by { assert ds[..3][..2] == ds[..2]; }
    assert WeightedSum(ds[..4], 4) == 61 by { assert ds[..4][..3] == ds[..3]; }
    assert WeightedSum(ds[..5], 3) == 71 by { assert ds[..5][..4] == ds[..4]; }
    assert WeightedSum(ds[..6], 2) == 79 by { assert ds[..6][..5] == ds[..5]; }
    assert WeightedSum(ds[..7], 1) == 106 by { assert ds[..7][..6] == ds[..6]; }
    assert WeightedSum(ds, 0) == 118 by { assert ds[..7] == ds[..|ds| - 1]; }
  }

  /** The third value of the package's test of `get_check_digit`: an eight-digit body. */
  lemma CheckDigitTestThird(input: string)
    requires input == "10.452.296"
    ensures GetCheckDigit(input) == Success('3')
  {
    var head, mid, last := "10", "452", "296";
    assert input == head + ['.'] + mid + ['.'] + last && head + mid + last == "10452296" by {
      assert input == "10" + ['.'] + "452" + ['.'] + "296";
    }
    CleanDottedBody(head, mid, last);
    ThirdTestBody(head + mid + last);
  }
}

=== FILE: digits.dfy ===
/** Decimal characters, and the two conversions the engine borrows from Python:
    `int(s)` on a string of ASCII digits and `str(n)` on a natural number. */
module Digits {

  const MAX_DIGIT := 9

  predicate IsDigit(c: char) {
    '0' <= c <= '9'
  }

  predicate AllDigits(s: string) {
    forall i :: 0 <= i < |s| ==> IsDigit(s[i])
  }

  /** Every character is '0'. */
  predicate AllZeros(s: string) {
    forall i :: 0 <= i < |s| ==> s[i] == '0'
  }

  function DigitValue(c: char): (d: nat)
    requires IsDigit(c)
    ensures d <= MAX_DIGIT
    ensures d == 0 <==> c == '0'
  {
    (c as int - '0' as int) as nat
  }

  function DigitChar(d: nat): (c: char)
    requires d <= MAX_DIGIT
    ensures IsDigit(c) && DigitValue(c) == d
  {
    ('0' as int + d) as char
  }

  /** `int(s)` for a string of ASCII digits (the empty string is never passed). */
  function NumberOf(s: string): (v: nat)
    requires AllDigits(s)
    ensures v < Pow10(|s|)
    decreases |s|
  {
    if s == [] then 0 else NumberOf(s[..|s| - 1]) * 10 + DigitValue(s[|s| - 1])
  }

  /** `str(n)`: the decimal numeral of `n`, without leading zeros. */
  function NatToString(n: nat): (s: string)
    ensures |s| >= 1 && AllDigits(s)
    ensures n > 0 ==> s[0] != '0'
    decreases n
  {
    if n <= MAX_DIGIT then [DigitChar(n)] else NatToString(n / 10) + [DigitChar(n % 10)]
  }

  /** `int(str(n)) == n`. */
  lemma {:induction false} NumberOfNatToString(n: nat)
    ensures NumberOf(NatToString(n)) == n
    decreases n
  {
    var s := NatToString(n);
    if n > MAX_DIGIT {
      NumberOfNatToString(n / 10);
      assert s[..|s| - 1] == NatToString(n / 10);
    }
  }

  function Pow10(k: nat): (p: nat)
    ensures p >= 1
  {
    if k == 0 then 1 else 10 * Pow10(k - 1)
  }

  /** `str(n)` has `k + 1` characters exactly when `10^k <= n < 10^(k+1)`. */
  lemma {:induction false} NatToStringLength(n: nat, k: nat)
    requires Pow10(k) <= n < Pow10(k + 1)
    ensures |NatToString(n)| == k + 1
    decreases k
  {
    if k > 0 {
      assert n > MAX_DIGIT;
      assert Pow10(k - 1) <= n / 10 < Pow10(k);
      NatToStringLength(n / 10, k - 1);
    }
  }
}

=== FILE: formatter.dfy ===
/** `format_rut` (rutpy/core/rut.py:114-143): thousands dots and a dash put back into a cleaned value. */
module Formatter {
  import opened Digits
  import opened Outcome
  import opened Normalizer

  /** Python's clamping of a slice bound: `s[-j:]` starts at `max(0, len(s) - j)`. */
  function Max0(x: int): nat {
    if x > 0 then x else 0
  }

  /** `s.replace(ch, '')`. */
  function Without(s: string, ch: char): string
    decreases |s|
  {
    if s == [] then []
    else (if s[0] == ch then [] else [s[0]]) + Without(s[1..], ch)
  }

  /** `b` with a '.' in front of every group of three characters counted from the right; the
      leading group holds the remaining one to three characters. */
  function Grouped(b: string): string
    decreases |b|
  {
    if |b| <= 3 then b
    else
      var lead := (|b| - 1) % 3 + 1;
      b[..lead] + "." + Grouped(b[lead..])
  }

  /** What `format_rut` returns for a non-empty cleaned value `c`: the body (grouped when `dots`),
      a '-', the check character, and then every '-' removed when `dash` is false. */
  function Formatted(c: string, dots: bool, dash: bool): string
    requires |c| > 0
  {
    var body, check := c[..|c| - 1], c[|c| - 1];
    var shown := (if dots then Grouped(body) else body) + "-" + [check];
    if dash then shown else Without(shown, '-')
  }

  /** `format_rut`: clean, punctuate, and drop the dash when `dash` is false. An empty cleaned
      value makes `rut[-1]` raise `IndexError`. */
  method FormatRut(rut: string, dots: bool := true, dash: bool := true) returns (r: Result<string>)
    ensures Clean(rut) == [] ==> r == Failure(IndexOutOfRange)
    ensures Clean(rut) != [] ==> r == Success(Formatted(Clean(rut), dots, dash))
  {
    var c := Clean(rut);
    if |c| == 0 {
      return Failure(IndexOutOfRange);  // `rut[-1]` of an empty string
    }
    var result := Punctuate(c, dots);
    FormattedFromShown(c, dots, dash, result);
    if !dash {
      result := Without(result, '-');
    }
    return Success(result);
  }

  /** Lines 132-138 of rutpy/core/rut.py: the body of a non-empty cleaned value `c`, with a '.'
      before every group of three digits counted from the right when `dots`, then '-' and the
      check character. The loop prepends one group per pass. */
  method Punctuate(c: string, dots: bool) returns (result: string)
    requires |c| > 0
    ensures result == (if dots then Grouped(c[..|c| - 1]) else c[..|c| - 1]) + ("-" + [c[|c| - 1]])
  {
    var n := |c|;
    var body, check := c[..n - 1], c[n - 1];
    var dashCheck := "-" + [check];
    if dots {
      result := c[Max0(n - 4)..n - 1] + dashCheck;
      ghost var start := Max0(n - 4);  // where the grouped part of `result` begins in `c`
      ghost var passes := 0;
      assert Grouped(c[start..n - 1]) == c[start..n - 1];
      var i := 4;
      while i < n
        invariant i == 4 + 3 * passes && start == Max0(n - i)
        invariant result == Grouped(c[start..n - 1]) + dashCheck
      {
        var lo, mid := Max0(n - 3 - i), n - i;
        var group := c[lo..mid];
        ghost var grouped := Grouped(c[mid..n - 1]);
        GroupStep(c, lo, mid, passes);
        assert group + "." + (grouped + dashCheck) == group + "." + grouped + dashCheck;
        result := group + "." + result;
        i := i + 3;
        start, passes := lo, passes + 1;
      }
      assert c[start..n - 1] == body;
    } else {
      result := body + dashCheck;
    }
  }

  /** `Formatted` in terms of the string before the dash is dropped. */
  lemma FormattedFromShown(c: string, dots: bool, dash: bool, shown: string)
    requires |c| > 0
    requires shown == (if dots then Grouped(c[..|c| - 1]) else c[..|c| - 1]) + ("-" + [c[|c| - 1]])
    ensures Formatted(c, dots, dash) == if dash then shown else Without(shown, '-')
  {
    var b := if dots then Grouped(c[..|c| - 1]) else c[..|c| - 1];
    assert b + ("-" + [c[|c| - 1]]) == b + "-" + [c[|c| - 1]];
  }

  /** The group the loop puts in front at index `i` extends the grouped suffix by three characters. */
  lemma GroupStep(c: string, lo: nat, mid: nat, passes: nat)
    requires lo < mid < |c| && mid - lo <= 3 && (lo == 0 || mid - lo == 3)
    requires |c| - mid == 4 + 3 * passes
    ensures Grouped(c[lo..|c| - 1]) == c[lo..mid] + "." + Grouped(c[mid..|c| - 1])
  {
    var p, y := c[lo..mid], c[mid..|c| - 1];
    assert |y| == 3 * (passes + 1);
    GroupedPrepend(p, y);
    assert p + y == c[lo..|c| - 1];
  }

  // ---------------------------------------------------------------------------------------------
  // Lemmas about the filters

  lemma {:induction false} WithoutAppend(a: string, b: string, ch: char)
    ensures Without(a + b, ch) == Without(a, ch) + Without(b, ch)
    decreases |a|
  {
    if a == [] {
      assert a + b == b;
    } else {
      assert (a + b)[0] == a[0];
      assert (a + b)[1..] == a[1..] + b;
      WithoutAppend(a[1..], b, ch);
    }
  }

  lemma {:induction false} WithoutAbsent(s: string, ch: char)
    requires ch !in s
    ensures Without(s, ch) == s
    decreases |s|
  {
    if s != [] {
      WithoutAbsent(s[1..], ch);
    }
  }

  // ---------------------------------------------------------------------------------------------
  // Grouping

  lemma GroupedUnfold(b: string)
    requires |b| > 3
    ensures var lead := (|b| - 1) % 3 + 1; Grouped(b) == b[..lead] + "." + Grouped(b[lead..])
  {
  }

  /** One pass of the loop at rutpy/core/rut.py:135-136: the next group `p` goes in front. */
  lemma GroupedPrepend(p: string, y: string)
    requires 1 <= |p| <= 3 && |y| >= 3 && |y| % 3 == 0
    ensures Grouped(p + y) == p + "." + Grouped(y)
  {
    var b := p + y;
    var lead := (|b| - 1) % 3 + 1;
    assert lead == |p| by {
      assert |b| == |p| + 3 * (|y| / 3);
      LeadOfPrepend(|p|, |y| / 3);
    }
    assert b[..lead] == p && b[lead..] == y;
    GroupedUnfold(b);
  }

  /** Whole triples after a group of 1-3 characters leave that group in front (kept apart from
      `GroupedPrepend`, whose context holds the sequences). */
  lemma LeadOfPrepend(a: nat, q: nat)
    requires 1 <= a <= 3
    ensures (a + 3 * q - 1) % 3 + 1 == a
  {
  }

  /** After the leading group, a whole number of groups of three remains. */
  lemma LeadLeavesTriples(b: string, lead: nat)
    requires |b| > 3 && lead == (|b| - 1) % 3 + 1
    ensures 1 <= lead <= 3 && |b[lead..]| % 3 == 0 && |b[lead..]| >= 3
  {
    var m := |b|;
    var q, k := (m - 1) / 3, (m - 1) % 3;
    assert m - (k + 1) == 3 * q;
    assert |b[lead..]| == 3 * q;
  }

  /** Grouping adds nothing but dots. */
  lemma {:induction false} GroupedAvoids(b: string, ch: char)
    requires ch != '.' && ch !in b
    ensures ch !in Grouped(b)
    decreases |b|
  {
    if |b| > 3 {
      var lead := (|b| - 1) % 3 + 1;
      GroupedAvoids(b[lead..], ch);
      assert ch !in b[..lead];
    }
  }

  /** Removing the dots from a grouped body gives the body back. */
  lemma {:induction false} GroupedWithoutDots(b: string)
    requires '.' !in b
    ensures Without(Grouped(b), '.') == b
    decreases |b|
  {
    if |b| <= 3 {
      WithoutAbsent(b, '.');
    } else {
      var lead := (|b| - 1) % 3 + 1;
      var head, tail, dot := b[..lead], b[lead..], ".";
      assert b == head + tail;
      GroupedWithoutDots(tail);
      var g := Grouped(b);
      assert g == head + dot + Grouped(tail);
      WithoutAppend(head + dot, Grouped(tail), '.');
      WithoutAppend(head, dot, '.');
      WithoutAbsent(head, '.');
      assert Without(dot, '.') == [] by {
        assert dot[1..] == [];
      }
      assert Without(head + dot, '.') == head;
      assert Without(g, '.') == head + tail;
    }
  }

  /** `clean` drops the dots that grouping put in. */
  lemma {:induction false} GroupedKeepRutChars(b: string)
    requires AllRutChars(b)
    ensures KeepRutChars(Grouped(b)) == b
    decreases |b|
  {
    if |b| <= 3 {
      KeepRutCharsOfRutString(b);
    } else {
      var lead := (|b| - 1) % 3 + 1;
      var head, tail := b[..lead], b[lead..];
      assert b == head + tail;
      GroupedKeepRutChars(tail);
      var g := Grouped(b);
      assert g == head + "." + Grouped(tail);
      KeepRutCharsAppend(head + ".", Grouped(tail));
      KeepRutCharsAppendOther(head, '.');
      KeepRutCharsOfRutString(head);
      assert KeepRutChars(head + ".") == head;
      assert KeepRutChars(g) == head + tail;
    }
  }

  /** Zero or more groups, each a dot followed by three characters other than a dot. */
  predicate DottedTriples(s: string)
    decreases |s|
  {
    s == [] || (|s| >= 4 && s[0] == '.' && '.' !in s[1..4] && DottedTriples(s[4..]))
  }

  /** A leading group of `lead` characters other than a dot, then dotted groups of three. */
  predicate LeadThenDottedTriples(s: string, lead: nat) {
    lead <= |s| && '.' !in s[..lead] && DottedTriples(s[lead..])
  }

  /** The layout of a grouped body: a leading group of one to three characters, then dotted triples. */
  predicate ThousandsShape(s: string) {
    LeadThenDottedTriples(s, 1) || LeadThenDottedTriples(s, 2) || LeadThenDottedTriples(s, 3)
  }

  lemma {:induction false} DottedGroupedTail(y: string)
    requires '.' !in y && |y| >= 3 && |y| % 3 == 0
    ensures DottedTriples("." + Grouped(y))
    decreases |y|
  {
    var s := "." + Grouped(y);
    if |y| == 3 {
      assert s[1..4] == y && s[4..] == [];
    } else {
      DottedGroupedTail(y[3..]);
      assert s[1..4] == y[..3];
      assert s[4..] == "." + Grouped(y[3..]);
    }
  }

  /** A run without dots in front of dotted triples has the thousands layout. */
  lemma LeadThenDotted(head: string, g: string)
    requires 1 <= |head| <= 3 && '.' !in head && DottedTriples("." + g)
    ensures ThousandsShape(head + "." + g)
  {
    var s := head + "." + g;
    assert s[..|head|] == head && s[|head|..] == "." + g;
    assert LeadThenDottedTriples(s, |head|);
  }

  /** Grouping yields exactly the thousands layout. */
  lemma GroupedShape(b: string)
    requires |b| >= 1 && '.' !in b
    ensures ThousandsShape(Grouped(b))
  {
    if |b| <= 3 {
      assert LeadThenDottedTriples(b, |b|) by {
        assert b[..|b|] == b && b[|b|..] == [];
      }
    } else {
      var lead := (|b| - 1) % 3 + 1;
      var head, tail := b[..lead], b[lead..];
      LeadLeavesTriples(b, lead);
      DottedGroupedTail(tail);
      GroupedUnfold(b);
      LeadThenDotted(head, Grouped(tail));
    }
  }

  // ---------------------------------------------------------------------------------------------
  // Properties of `format_rut`

  /** A separator removed from a string that has one only in front of the last character. */
  lemma WithoutBeforeLast(b: string, sep: char, check: char, ch: char)
    requires ch !in b && ch != check
    ensures Without(b + [sep] + [check], ch) == b + (if sep == ch then [] else [sep]) + [check]
  {
    WithoutAppend(b + [sep], [check], ch);
    WithoutAppend(b, [sep], ch);
    WithoutAbsent(b, ch);
    WithoutAbsent([check], ch);
    assert Without([sep], ch) == (if sep == ch then [] else [sep]) by {
      assert [sep][1..] == [];
    }
  }

  /** The punctuated body without its dots is the body. */
  lemma PunctuatedBody(body: string, dots: bool)
    requires '.' !in body && '-' !in body
    ensures var b := if dots then Grouped(body) else body;
            Without(b, '.') == body && '-' !in b
  {
    if dots {
      GroupedWithoutDots(body);
      GroupedAvoids(body, '-');
    } else {
      WithoutAbsent(body, '.');
    }
  }

  /** The output of `format_rut` is the punctuated body, the dash when it is kept, and the check
      character. */
  lemma FormattedParts(c: string, dots: bool, dash: bool)
    requires |c| > 0 && '-' !in c
    ensures var body, check := c[..|c| - 1], c[|c| - 1];
            var b := if dots then Grouped(body) else body;
            Formatted(c, dots, dash) == if dash then b + ['-'] + [check] else b + [check]
  {
    var body, check := c[..|c| - 1], c[|c| - 1];
    assert c == body + [check];
    assert '-' !in body;
    if dots {
      GroupedAvoids(body, '-');
    }
    var b := if dots then Grouped(body) else body;
    WithoutBeforeLast(b, '-', check, '-');
  }

  /** Deleting every '.' and '-' from the output gives the cleaned input back. */
  lemma FormattedStripsToClean(c: string, dots: bool, dash: bool)
    requires |c| > 0 && '.' !in c && '-' !in c
    ensures Without(Without(Formatted(c, dots, dash), '.'), '-') == c
  {
    var body, check := c[..|c| - 1], c[|c| - 1];
    assert c == body + [check];
    assert '.' !in body && '-' !in body && check != '.' && check != '-';
    PunctuatedBody(body, dots);
    FormattedParts(c, dots, dash);
    var b := if dots then Grouped(body) else body;
    if dash {
      StripDotsBeforeDash(b, body, check);
    } else {
      WithoutAppend(b, [check], '.');
      WithoutAbsent([check], '.');
      WithoutAbsent(c, '-');
    }
  }

  lemma StripDotsBeforeDash(b: string, body: string, check: char)
    requires Without(b, '.') == body && '-' !in body && check != '.' && check != '-'
    ensures Without(Without(b + ['-'] + [check], '.'), '-') == body + [check]
  {
    WithoutAppend(b + ['-'], [check], '.');
    WithoutAppend(b, ['-'], '.');
    WithoutAbsent(['-'], '.');
    WithoutAbsent([check], '.');
    WithoutBeforeLast(body, '-', check, '-');
  }

  /** With dots and dash: the grouped body, a '-', then the check character. */
  lemma DottedFormatShape(c: string)
    requires |c| >= 2 && '.' !in c
    ensures var out := Formatted(c, true, true);
            && |out| >= 3
            && out[|out| - 2] == '-'
            && out[|out| - 1] == c[|c| - 1]
            && ThousandsShape(out[..|out| - 2])
            && Without(out[..|out| - 2], '.') == c[..|c| - 1]
  {
    var out := Formatted(c, true, true);
    GroupedShape(c[..|c| - 1]);
    GroupedWithoutDots(c[..|c| - 1]);
    assert out[..|out| - 2] == Grouped(c[..|c| - 1]);
  }

  /** Neither dots nor dash: the cleaned value itself. */
  lemma PlainFormatIsClean(c: string)
    requires |c| > 0 && '-' !in c
    ensures Formatted(c, false, false) == c
  {
    var body, check := c[..|c| - 1], c[|c| - 1];
    WithoutBeforeLast(body, '-', check, '-');
    assert c == body + [check];
  }

  /** Grouping adds one dot per full group of three after the leading group. */
  lemma {:induction false} GroupedLength(b: string)
    requires |b| >= 1
    ensures |Grouped(b)| == |b| + (|b| - 1) / 3
    decreases |b|
  {
    if |b| > 3 {
      var lead := (|b| - 1) % 3 + 1;
      var tail := b[lead..];
      LeadLeavesTriples(b, lead);
      GroupedLength(tail);
      GroupedUnfold(b);
      var q := |tail| / 3;
      assert |tail| == 3 * q && q >= 1;
      assert (|tail| - 1) / 3 == q - 1;
      assert (|b| - 1) / 3 == q;
    }
  }

  /** Grouping keeps the first character in front. */
  lemma GroupedFirst(b: string)
    requires |b| > 0
    ensures |Grouped(b)| > 0 && Grouped(b)[0] == b[0]
  {
    if |b| > 3 {
      GroupedUnfold(b);
    }
  }

  /** `clean` keeps exactly the body and the check character of the punctuated value. */
  lemma KeepOfFormatted(c: string, dots: bool, dash: bool)
    requires |c| > 0 && AllRutChars(c)
    ensures KeepRutChars(Formatted(c, dots, dash)) == c
  {
    var body, check := c[..|c| - 1], c[|c| - 1];
    assert c == body + [check];
    assert AllRutChars(body) && '-' !in c;
    FormattedParts(c, dots, dash);
    var b := if dots then Grouped(body) else body;
    assert KeepRutChars(b) == body by {
      if dots {
        GroupedKeepRutChars(body);
      } else {
        KeepRutCharsOfRutString(body);
      }
    }
    if dash {
      KeepAcrossSeparator(b, '-', [check]);
    } else {
      KeepRutCharsAppend(b, [check]);
      KeepRutCharsOfRutString([check]);
    }
  }

  /** `clean` undoes `format_rut` whenever the cleaned value does not start with '0'. */
  lemma CleanOfFormatted(c: string, dots: bool, dash: bool)
    requires |c| > 0 && AllRutChars(c) && c[0] != '0'
    ensures Clean(Formatted(c, dots, dash)) == c
  {
    KeepOfFormatted(c, dots, dash);
    var out := Formatted(c, dots, dash);
    var body := c[..|c| - 1];
    if body != [] {
      if dots {
        GroupedFirst(body);
      }
      assert out[0] == c[0];
    } else {
      WithoutBeforeLast([], '-', c[0], '-');
      assert out == if dash then [] + ['-'] + [c[0]] else [] + [c[0]];
    }
    CleanNoLeadingZero(out);
  }

  /** For a value of two or more characters the condition is also necessary: a leading '0' is
      printed first and then removed by `clean`, so `clean` does not give the value back. */
  lemma CleanOfFormattedIff(c: string, dots: bool, dash: bool)
    requires |c| >= 2 && AllRutChars(c)
    ensures Clean(Formatted(c, dots, dash)) == c <==> c[0] != '0'
  {
    if c[0] != '0' {
      CleanOfFormatted(c, dots, dash);
    } else {
      KeepOfFormatted(c, dots, dash);
      var out := Formatted(c, dots, dash);
      var body := c[..|c| - 1];
      if dots {
        GroupedFirst(body);
      }
      FormattedParts(c, dots, dash);
      assert out[0] == '0';
      KeepSplitsAtZeroRun(out);
      assert |Clean(out)| < |c|;
    }
  }

  /** The one-character value `"0"` is the exception to the two-character bound of
      `CleanOfFormattedIff`: printed with the dash it comes back from `clean`, without it not. */
  lemma FormatSingleZero(c: string, dots: bool)
    requires c == "0"
    ensures Formatted(c, dots, true) == "-0" && Clean(Formatted(c, dots, true)) == c
    ensures Formatted(c, dots, false) == "0" && Clean(Formatted(c, dots, false)) == []
  {
    assert c[..0] == [] && Grouped([]) == [];
    var shown := "-" + "0";
    assert Formatted(c, dots, true) == shown;
    assert Without(shown, '-') == "0" by {
      assert shown[1..] == "0";
      assert Without("0", '-') == "0" by {
        assert "0"[1..] == [];
      }
    }
    assert Clean(shown) == "0" by {
      assert LeadingZeros(shown) == 0;
      assert shown[0..] == shown;
      KeepRutCharsAppend("-", "0");
      KeepRutCharsAppendOther([], '-');
      assert [] + ['-'] == "-";
      KeepRutCharsOfRutString("0");
    }
    assert Clean("0") == [] by {
      assert LeadingZeros("0") == 1 by {
        assert "0"[1..] == [];
      }
    }
  }

  /** A formatted value whose cleaned value does not start with '0' formats to itself. */
  lemma FormatIdempotent(c: string)
    requires |c| > 0 && AllRutChars(c) && c[0] != '0'
    ensures Clean(Formatted(c, true, true)) == c
    ensures Formatted(Clean(Formatted(c, true, true)), true, true) == Formatted(c, true, true)
  {
    CleanOfFormatted(c, true, true);
  }

  /** Without that condition clean-then-format is not stable: `".012"` cleans to `"012"`, which is
      printed `"01-2"`, and that cleans to `"12"`, printed `"1-2"`. */
  lemma FormatNotStable(s: string)
    requires s == ".012"
    ensures Clean(s) == "012"
    ensures Formatted(Clean(s), true, true) == "01-2"
    ensures Clean(Formatted(Clean(s), true, true)) == "12"
    ensures Formatted(Clean(Formatted(Clean(s), true, true)), true, true) == "1-2"
  {
    CleanNotIdempotent(s);
    var c := Clean(s);
    assert c[..|c| - 1] == "01" && c[|c| - 1] == '2';
    assert Grouped("01") == "01";
    var out := Formatted(c, true, true);
    assert out == "01" + "-" + ['2'];
    assert out == "01-2";
    assert LeadingZeros(out) == 1 by {
      assert out[1..] == "1-2";
      assert "1-2"[0] != '0';
    }
    assert KeepRutChars("1-2") == "12" by {
      assert "1-2"[1..] == "-2";
      assert "-2"[1..] == "2";
      assert "2"[1..] == [];
    }
    assert out[1..] == "1-2";
    var again := Clean(out);
    assert again[..|again| - 1] == "1" && again[|again| - 1] == '2';
    assert Grouped("1") == "1";
    assert Formatted(again, true, true) == "1" + "-" + ['2'];
  }

  /** A lead group and two groups of three are joined by two dots. */
  lemma GroupedThreeGroups(head: string, mid: string, last: string)
    requires 1 <= |head| <= 3 && |mid| == 3 && |last| == 3
    ensures Grouped(head + (mid + last)) == head + "." + (mid + "." + last)
  {
    assert Grouped(last) == last;
    GroupedPrepend(mid, last);
    GroupedPrepend(head, mid + last);
  }

  /** A body of a lead group and two triples, completed with its check character, is printed with
      two dots and a dash. */
  lemma FormattedThreeGroups(head: string, mid: string, last: string, check: char)
    requires 1 <= |head| <= 3 && |mid| == 3 && |last| == 3
    requires '-' !in head && '-' !in mid && '-' !in last && check != '-'
    ensures Formatted(head + mid + last + [check], true, true) == head + "." + mid + "." + last + "-" + [check]
  {
    var c := head + mid + last + [check];
    var body := head + (mid + last);
    assert c == body + [check];
    assert c[..|c| - 1] == body && c[|c| - 1] == check && '-' !in c;
    var grouped := head + "." + (mid + "." + last);
    assert grouped + ['-'] + [check] == head + "." + mid + "." + last + "-" + [check];
    GroupedThreeGroups(head, mid, last);
    FormattedParts(c, true, true);
  }

  /** A value printed `D.DDD.DDD-C` (with one to three leading digits) cleans to its characters and
      is printed back unchanged. */
  lemma ReformatThreeGroups(head: string, mid: string, last: string, check: char)
    requires 1 <= |head| <= 3 && |mid| == 3 && |last| == 3 && head[0] != '0'
    requires AllRutChars(head) && AllRutChars(mid) && AllRutChars(last) && IsRutChar(check)
    ensures var rut := head + "." + mid + "." + last + "-" + [check];
            Clean(rut) == head + mid + last + [check] && Formatted(Clean(rut), true, true) == rut
  {
    CleanPunctuated(head, mid, last, [check]);
    assert '-' !in head && '-' !in mid && '-' !in last by {
      assert !IsRutChar('-');
    }
    FormattedThreeGroups(head, mid, last, check);
  }

  /** The worked example of the package's documentation. */
  lemma FormatExample(c: string)
    requires c == "351146524"
    ensures Formatted(c, true, true) == "35.114.652-4"
  {
    var head, mid, last := "35", "114", "652";
    var body := c[..|c| - 1];
    assert body == head + (mid + last) && c[|c| - 1] == '4';
    FormattedParts(c, true, true);
    GroupedThreeGroups(head, mid, last);
    assert head + "." + (mid + "." + last) + ['-'] + ['4'] == "35.114.652-4";
  }

  /** `173359950` is printed `17.335.995-0`. */
  lemma FormattedTestExample(c: string)
    requires c == "173359950"
    ensures Formatted(c, true, true) == "17.335.995-0"
  {
    var head, mid, last := "17", "335", "995";
    var body := c[..|c| - 1];
    assert body == head + (mid + last) && c[|c| - 1] == '0';
    FormattedParts(c, true, true);
    GroupedThreeGroups(head, mid, last);
    assert head + "." + (mid + "." + last) + ['-'] + ['0'] == "17.335.995-0";
  }

  /** `17.335.995-0` cleans to `173359950`. */
  lemma CleanedTestExample(rut: string)
    requires rut == "17.335.995-0"
    ensures Clean(rut) == "173359950"
  {
    var head, mid, last, check := "17", "335", "995", "0";
    assert rut == head + ['.'] + mid + ['.'] + last + ['-'] + check;
    CleanPunctuated(head, mid, last, check);
    assert head + mid + last + check == "173359950";
  }

  /** The first value of the package's test of `format`: an already formatted value is printed
      back unchanged. */
  lemma FormatTestExample(rut: string)
    requires rut == "17.335.995-0"
    ensures Clean(rut) == "173359950"
    ensures Formatted(Clean(rut), true, true) == rut
  {
    CleanedTestExample(rut);
    FormattedTestExample(Clean(rut));
  }

  /** The second value of the package's test of `format` is printed back unchanged too. */
  lemma FormatTestSecond(rut: string)
    requires rut == "20.709.073-5"
    ensures Clean(rut) == "207090735"
    ensures Formatted(Clean(rut), true, true) == rut
  {
    var head, mid, last := "20", "709", "073";
    assert rut == head + "." + mid + "." + last + "-" + ['5'] && head + mid + last + ['5'] == "207090735" by {
      assert rut == "20" + "." + "709" + "." + "073" + "-" + ['5'];
    }
    ReformatThreeGroups(head, mid, last, '5');
  }
}

=== FILE: generator.dfy ===
/** `generate` (rutpy/core/rut.py:146-166): random RUT numbers, each completed with its check
    symbol and formatted with dots and dash. The random draws are supplied by the caller. */
module Generator {
  import opened Digits
  import opened Outcome
  import opened Normalizer
  import opened Checksum
  import opened Validator
  import opened Formatter

  /** The bounds of `random.randint`, both inclusive. */
  const MIN_BASE := 1000000
  const MAX_BASE := 25000000

  /** What one pass of `generate` produces from the drawn number `n`. */
  function RutFor(n: nat): string {
    var ds := NatToString(n);
    Formatted(ds + [CheckDigitOf(ds)], true, true)
  }

  // ---------------------------------------------------------------------------------------------
  // Formatted values match the validation pattern

  /** One more dotted group of three digits in front of groups that match `(\.?\d{3})*`. */
  lemma DottedTripleInFront(head: string, g: string)
    requires |head| == 3 && AllDigits(head) && Triples("." + g)
    ensures Triples("." + ((head + ".") + g))
  {
    var s := "." + ((head + ".") + g);
    assert s[1..4] == head && s[4..] == "." + g;
  }

  /** Dotted groups of three digits match `(\.?\d{3})*`. */
  lemma {:induction false} DottedGroupsAreTriples(y: string)
    requires AllDigits(y) && |y| >= 3 && |y| % 3 == 0
    ensures Triples("." + Grouped(y))
    decreases |y|
  {
    if |y| == 3 {
      var s := "." + Grouped(y);
      assert s[1..4] == y && s[4..] == [];
    } else {
      var head, tail := y[..3], y[3..];
      assert y == head + tail;
      GroupedPrepend(head, tail);
      DottedGroupsAreTriples(tail);
      DottedTripleInFront(head, Grouped(tail));
    }
  }

  /** A leading group of one to three digits in front of dotted groups matches
      `\d{1,3}(\.?\d{3})*`. */
  lemma LeadInFront(head: string, g: string)
    requires 1 <= |head| <= 3 && AllDigits(head) && Triples("." + g)
    ensures DigitGroups(head + "." + g)
  {
    var s := head + "." + g;
    assert s[..|head|] == head && s[|head|..] == "." + g;
    assert LeadThenTriples(s, |head|);
  }

  /** A grouped digit body matches `\d{1,3}(\.?\d{3})*`. */
  lemma GroupedDigitGroups(ds: string)
    requires |ds| >= 1 && AllDigits(ds)
    ensures DigitGroups(Grouped(ds))
  {
    if |ds| <= 3 {
      assert ds[..|ds|] == ds && ds[|ds|..] == [];
      assert LeadThenTriples(ds, |ds|);
    } else {
      var lead := (|ds| - 1) % 3 + 1;
      var head, tail := ds[..lead], ds[lead..];
      LeadLeavesTriples(ds, lead);
      DottedGroupsAreTriples(tail);
      GroupedUnfold(ds);
      LeadInFront(head, Grouped(tail));
    }
  }

  /** `get_check_digit` of `str(n)` succeeds with the closed-form symbol. */
  lemma CheckDigitOfNumeral(ds: string)
    requires |ds| >= 1 && AllDigits(ds) && ds[0] != '0'
    ensures GetCheckDigit(ds) == Success(CheckDigitOf(ds))
  {
    CleanFixedPoint(ds);
  }

  /** A digit body without leading zero followed by its check symbol is already clean. */
  lemma CleanOfCompleted(ds: string)
    requires |ds| >= 1 && AllDigits(ds) && ds[0] != '0'
    ensures Clean(ds + [CheckDigitOf(ds)]) == ds + [CheckDigitOf(ds)]
  {
    var c := ds + [CheckDigitOf(ds)];
    assert c[0] == ds[0] && AllRutChars(c);
    CleanFixedPoint(c);
  }

  /** Undotted groups of three digits match `(\.?\d{3})*` too. */
  lemma {:induction false} PlainTriples(y: string)
    requires AllDigits(y) && |y| % 3 == 0
    ensures Triples(y)
    decreases |y|
  {
    if y != [] {
      assert IsDigit(y[0]);
      PlainTriples(y[3..]);
    }
  }

  /** A digit body without dots matches `\d{1,3}(\.?\d{3})*`. */
  lemma PlainDigitGroups(ds: string)
    requires |ds| >= 1 && AllDigits(ds)
    ensures DigitGroups(ds)
  {
    if |ds| <= 3 {
      assert ds[..|ds|] == ds && ds[|ds|..] == [];
      assert LeadThenTriples(ds, |ds|);
    } else {
      var lead := (|ds| - 1) % 3 + 1;
      LeadLeavesTriples(ds, lead);
      PlainTriples(ds[lead..]);
      assert LeadThenTriples(ds, lead);
    }
  }

  /** The punctuated body of a digit string matches `\d{1,3}(\.?\d{3})*` and starts with its
      first digit. */
  lemma PunctuatedDigitGroups(ds: string, dots: bool)
    requires |ds| >= 1 && AllDigits(ds)
    ensures var b := if dots then Grouped(ds) else ds;
            DigitGroups(b) && b[0] == ds[0]
  {
    if dots {
      GroupedDigitGroups(ds);
      GroupedFirst(ds);
    } else {
      PlainDigitGroups(ds);
    }
  }

  /** Every digit body without leading zero, completed with its check symbol and formatted in any
      of the four styles, is accepted by `validate`. */
  lemma FormattedRutAccepted(ds: string, dots: bool, dash: bool)
    requires |ds| >= 1 && AllDigits(ds) && ds[0] != '0'
    ensures Accepts(Formatted(ds + [CheckDigitOf(ds)], dots, dash))
  {
    var check := CheckDigitOf(ds);
    var c := ds + [check];
    assert c[..|c| - 1] == ds && c[|c| - 1] == check && c[0] == ds[0];
    assert AllRutChars(c);
    FormattedParts(c, dots, dash);
    PunctuatedDigitGroups(ds, dots);
    var b := if dots then Grouped(ds) else ds;
    var out := Formatted(c, dots, dash);
    var rest := if dash then b + ['-'] else b;
    assert out == rest + [check];
    assert out[..|out| - 1] == rest && out[|out| - 1] == check && out[0] == b[0];
    if dash {
      assert rest[..|rest| - 1] == b;
    }
    assert BodyDashCheck(out);
    assert MatchesRutPattern(out);
    CleanOfFormatted(c, dots, dash);
    CheckDigitOfNumeral(ds);
  }

  /** The check symbol of `4612837` is `0`: its weighted sum is 121, a multiple of eleven. */
  lemma DocstringCheckDigit(ds: string)
    requires ds == "4612837"
    ensures AllDigits(ds) && CheckDigitOf(ds) == '0'
  {
    assert WeightedSum(ds[..0], 7) == 0;
    assert WeightedSum(ds[..1], 6) == 8 by { assert ds[..1][..0] == ds[..0]; }
    assert WeightedSum(ds[..2], 5) == 50 by { assert ds[..2][..1] == ds[..1]; }
    assert WeightedSum(ds[..3], 4) == 56 by { assert ds[..3][..2] == ds[..2]; }
    assert WeightedSum(ds[..4], 3) == 66 by { assert ds[..4][..3] == ds[..3]; }
    assert WeightedSum(ds[..5], 2) == 98 by { assert ds[..5][..4] == ds[..4]; }
    assert WeightedSum(ds[..6], 1) == 107 by { assert ds[..6][..5] == ds[..5]; }
    assert WeightedSum(ds, 0) == 121 by { assert ds[..6] == ds[..|ds| - 1]; }
  }

  /** `validate("4612837-0")` holds. */
  lemma DocstringRutAccepted(rut: string)
    requires rut == "4612837-0"
    ensures Accepts(rut)
  {
    var ds := "4612837";
    DocstringCheckDigit(ds);
    var c := ds + ['0'];
    assert c[..|c| - 1] == ds && c[|c| - 1] == '0';
    assert Formatted(c, false, true) == rut;
    FormattedRutAccepted(ds, false, true);
  }

  /** The check symbol of `5250755` is `3`: its weighted sum is 107, and 107 + 3 = 110. */
  lemma SuiteCheckDigit(ds: string)
    requires ds == "5250755"
    ensures AllDigits(ds) && CheckDigitOf(ds) == '3'
  {
    assert WeightedSum(ds[..0], 7) == 0;
    assert WeightedSum(ds[..1], 6) == 10 by { assert ds[..1][..0] == ds[..0]; }
    assert WeightedSum(ds[..2], 5) == 24 by { assert ds[..2][..1] == ds[..1]; }
    assert WeightedSum(ds[..3], 4) == 54 by { assert ds[..3][..2] == ds[..2]; }
    assert WeightedSum(ds[..4], 3) == 54 by { assert ds[..4][..3] == ds[..3]; }
    assert WeightedSum(ds[..5], 2) == 82 by { assert ds[..5][..4] == ds[..4]; }
    assert WeightedSum(ds[..6], 1) == 97 by { assert ds[..6][..5] == ds[..5]; }
    assert WeightedSum(ds, 0) == 107 by { assert ds[..6] == ds[..|ds| - 1]; }
  }

  /** `5250755` completed with `3` is printed `5.250.755-3`. */
  lemma SuiteFormat(c: string)
    requires c == "52507553"
    ensures Formatted(c, true, true) == "5.250.755-3"
  {
    var head, mid, last := "5", "250", "755";
    var body := c[..|c| - 1];
    assert body == head + (mid + last) && c[|c| - 1] == '3';
    FormattedParts(c, true, true);
    GroupedThreeGroups(head, mid, last);
    assert head + "." + (mid + "." + last) + ['-'] + ['3'] == "5.250.755-3";
  }

  /** `validate("5.250.755-3")` holds, the first value of the package's test suite. */
  lemma SuiteRutAccepted(rut: string)
    requires rut == "5.250.755-3"
    ensures Accepts(rut)
  {
    var ds := "5250755";
    SuiteCheckDigit(ds);
    var c := ds + ['3'];
    assert c == "52507553";
    SuiteFormat(c);
    FormattedRutAccepted(ds, true, true);
  }

  /** A body of seven or eight digits without leading zero, completed with its check symbol and
      written with dots and dash, is accepted by `validate`. */
  lemma DottedRutAccepted(head: string, mid: string, last: string)
    requires 1 <= |head| <= 3 && |mid| == 3 && |last| == 3
    requires AllDigits(head) && AllDigits(mid) && AllDigits(last) && head[0] != '0'
    ensures Accepts(head + "." + mid + "." + last + "-" + [CheckDigitOf(head + mid + last)])
  {
    var ds := head + mid + last;
    assert AllDigits(ds) && ds[0] == head[0];
    var check := CheckDigitOf(ds);
    assert '-' !in head && '-' !in mid && '-' !in last && check != '-';
    FormattedThreeGroups(head, mid, last, check);
    FormattedRutAccepted(ds, true, true);
  }

  /** The check symbol of `14461448` is `8`: its weighted sum is 124, and 124 + 8 = 132. */
  lemma SuiteSecondCheckDigit(ds: string)
    requires ds == "14461448"
    ensures AllDigits(ds) && CheckDigitOf(ds) == '8'
  {
    assert WeightedSum(ds[..0], 8) == 0;
    assert WeightedSum(ds[..1], 7) == 3 by { assert ds[..1][..0] == ds[..0]; }
    assert WeightedSum(ds[..2], 6) == 11 by { assert ds[..2][..1] == ds[..1]; }
    assert WeightedSum(ds[..3], 5) == 39 by { assert ds[..3][..2] == ds[..2]; }
    assert WeightedSum(ds[..4], 4) == 75 by { assert ds[..4][..3] == ds[..3]; }
    assert WeightedSum(ds[..5], 3) == 80 by { assert ds[..5][..4] == ds[..4]; }
    assert WeightedSum(ds[..6], 2) == 96 by { assert ds[..6][..5] == ds[..5]; }
    assert WeightedSum(ds[..7], 1) == 108 by { assert ds[..7][..6] == ds[..6]; }
    assert WeightedSum(ds, 0) == 124 by { assert ds[..7] == ds[..|ds| - 1]; }
  }

  /** `validate("14.461.448-8")` holds, the second value of the package's test suite. */
  lemma SuiteSecondRutAccepted(rut: string)
    requires rut == "14.461.448-8"
    ensures Accepts(rut)
  {
    var head, mid, last := "14", "461", "448";
    assert head + mid + last == "14461448" by { }
    SuiteSecondCheckDigit(head + mid + last);
    assert rut == head + "." + mid + "." + last + "-" + [CheckDigitOf(head + mid + last)] by {
      assert rut == "14" + "." + "461" + "." + "448" + "-" + ['8'];
    }
    DottedRutAccepted(head, mid, last);
  }

  /** The check symbol of `20351114` is `0`: its weighted sum is 77, a multiple of 11. */
  lemma SuiteThirdCheckDigit(ds: string)
    requires ds == "20351114"
    ensures AllDigits(ds) && CheckDigitOf(ds) == '0'
  {
    assert WeightedSum(ds[..0], 8) == 0;
    assert WeightedSum(ds[..1], 7) == 6 by { assert ds[..1][..0] == ds[..0]; }
    assert WeightedSum(ds[..2], 6) == 6 by { assert ds[..2][..1] == ds[..1]; }
    assert WeightedSum(ds[..3], 5) == 27 by { assert ds[..3][..2] == ds[..2]; }
    assert WeightedSum(ds[..4], 4) == 57 by { assert ds[..4][..3] == ds[..3]; }
    assert WeightedSum(ds[..5], 3) == 62 by { assert ds[..5][..4] == ds[..4]; }
    assert WeightedSum(ds[..6], 2) == 66 by { assert ds[..6][..5] == ds[..5]; }
    assert WeightedSum(ds[..7], 1) == 69 by { assert ds[..7][..6] == ds[..6]; }
    assert WeightedSum(ds, 0) == 77 by { assert ds[..7] == ds[..|ds| - 1]; }
  }

  /** `validate("20.351.114-0")` holds, the third value of the package's test suite. */
  lemma SuiteThirdRutAccepted(rut: string)
    requires rut == "20.351.114-0"
    ensures Accepts(rut)
  {
    var head, mid, last := "20", "351", "114";
    assert head + mid + last == "20351114" by { }
    SuiteThirdCheckDigit(head + mid + last);
    assert rut == head + "." + mid + "." + last + "-" + [CheckDigitOf(head + mid + last)] by {
      assert rut == "20" + "." + "351" + "." + "114" + "-" + ['0'];
    }
    DottedRutAccepted(head, mid, last);
  }

  /** `str(n)` of a drawn number has seven or eight digits. */
  lemma DrawnNumeralLength(n: nat)
    requires MIN_BASE <= n <= MAX_BASE
    ensures |NatToString(n)| == 7 || |NatToString(n)| == 8
  {
    assert Pow10(6) == 1000000 && Pow10(7) == 10000000 && Pow10(8) == 100000000;
    if n < 10000000 {
      NatToStringLength(n, 6);
    } else {
      NatToStringLength(n, 7);
    }
  }

  /** A digit body without leading zero, completed with a check character and formatted with dots
      and dash: thousands groups, a dash, the check character, and `clean` undoes the formatting. */
  lemma CompletedShape(ds: string, check: char)
    requires |ds| >= 1 && AllDigits(ds) && ds[0] != '0' && IsRutChar(check)
    ensures var r := Formatted(ds + [check], true, true);
            && |r| == |ds| + (|ds| - 1) / 3 + 2
            && r[|r| - 2] == '-' && r[|r| - 1] == check
            && ThousandsShape(r[..|r| - 2])
            && Without(r[..|r| - 2], '.') == ds
            && Clean(r) == ds + [check]
  {
    var c := ds + [check];
    assert c[..|c| - 1] == ds && c[|c| - 1] == check;
    assert AllRutChars(c) && c[0] != '0';
    GroupedLength(ds);
    FormattedParts(c, true, true);
    DottedFormatShape(c);
    CleanOfFormatted(c, true, true);
  }

  /** A generated RUT is `D.DDD.DDD-C` or `DD.DDD.DDD-C`: the drawn number in thousands groups,
      a dash and the check symbol, and `clean` recovers the number and its symbol. */
  lemma GeneratedShape(n: nat)
    requires MIN_BASE <= n <= MAX_BASE
    ensures var ds, r := NatToString(n), RutFor(n);
            && (|r| == 11 || |r| == 12)
            && r[|r| - 2] == '-' && r[|r| - 1] == CheckDigitOf(ds)
            && ThousandsShape(r[..|r| - 2])
            && Without(r[..|r| - 2], '.') == ds
            && Clean(r) == ds + [CheckDigitOf(ds)]
  {
    var ds := NatToString(n);
    var check := CheckDigitOf(ds);
    DrawnNumeralLength(n);
    CompletedShape(ds, check);
    var r := RutFor(n);
    assert r == Formatted(ds + [check], true, true);
    assert |r| == |ds| + (|ds| - 1) / 3 + 2;
  }

  /** Every RUT `generate` can produce passes `validate`. */
  lemma GeneratedAccepted(n: nat)
    requires MIN_BASE <= n <= MAX_BASE
    ensures Accepts(RutFor(n))
  {
    FormattedRutAccepted(NatToString(n), true, true);
  }

  // ---------------------------------------------------------------------------------------------
  // The operation

  /** A one-element list is the list of its first element (kept apart from `Generate`, whose
      proof context is large). */
  lemma SingletonOfFirst(s: seq<string>)
    requires |s| == 1
    ensures [s[0]] == s
  {
  }

  /** `generate(num)` with `draws[k]` standing for the `k`-th call of `random.randint`. */
  method Generate(num: int := 1, draws: seq<nat>) returns (ruts: seq<string>)
    requires num <= |draws|
    requires forall k :: 0 <= k < |draws| ==> MIN_BASE <= draws[k] <= MAX_BASE
    ensures |ruts| == Max0(num)
    ensures forall k :: 0 <= k < |ruts| ==> ruts[k] == RutFor(draws[k])
  {
    ruts := [];
    var k := 0;
    while k < num
      invariant 0 <= k == |ruts| <= Max0(num)
      invariant forall j :: 0 <= j < k ==> ruts[j] == RutFor(draws[j])
    {
      var rutBase := draws[k];
      var rut := NatToString(rutBase);
      CheckDigitOfNumeral(rut);
      var dv := GetCheckDigit(rut).value;
      CleanOfCompleted(rut);
      var formatted := FormatRut(rut + [dv]);
      assert formatted.value == RutFor(rutBase);
      ruts := ruts + [formatted.value];
      k := k + 1;
    }
    if num == 1 {
      SingletonOfFirst(ruts);
      ruts := [ruts[0]];
    }
  }
}

=== FILE: normalizer.dfy ===
/** `clean`: the substitution `^0+|[^0-9kK]+` -> "" (rutpy/core/rut.py:38).
    The `^0+` alternative can only match at index 0, so the scan removes the run of
    '0' that starts the input and, everywhere, every character other than 0-9, k, K. */
module Normalizer {
  import opened Digits

  /** The characters `clean` keeps: `[0-9kK]`. */
  predicate IsRutChar(c: char) {
    IsDigit(c) || c == 'k' || c == 'K'
  }

  predicate AllRutChars(s: string) {
    forall i :: 0 <= i < |s| ==> IsRutChar(s[i])
  }

  /** Length of the run of '0' at the very start of `s` (what `^0+` matches). */
  function LeadingZeros(s: string): (n: nat)
    ensures n <= |s|
    ensures forall i :: 0 <= i < n ==> s[i] == '0'
    ensures n < |s| ==> s[n] != '0'
    decreases |s|
  {
    if |s| > 0 && s[0] == '0' then 1 + LeadingZeros(s[1..]) else 0
  }

  /** What `[^0-9kK]+` leaves of `s`: its 0-9/k/K characters, in order. */
  function KeepRutChars(s: string): (r: string)
    ensures AllRutChars(r) && |r| <= |s|
    decreases |s|
  {
    if s == [] then []
    else (if IsRutChar(s[0]) then [s[0]] else []) + KeepRutChars(s[1..])
  }

  function Clean(rut: string): (r: string)
    ensures AllRutChars(r) && |r| <= |rut|
  {
    KeepRutChars(rut[LeadingZeros(rut)..])
  }

  /** Filtering keeps a string of 0-9/k/K characters unchanged. */
  lemma {:induction false} KeepRutCharsOfRutString(s: string)
    requires AllRutChars(s)
    ensures KeepRutChars(s) == s
    decreases |s|
  {
    if s != [] {
      KeepRutCharsOfRutString(s[1..]);
    }
  }

  lemma {:induction false} KeepRutCharsAppend(a: string, b: string)
    ensures KeepRutChars(a + b) == KeepRutChars(a) + KeepRutChars(b)
    decreases |a|
  {
    if a != [] {
      assert (a + b)[0] == a[0];
      assert (a + b)[1..] == a[1..] + b;
      KeepRutCharsAppend(a[1..], b);
    } else {
      assert a + b == b;
    }
  }

  /** A separator appended to the input contributes nothing. */
  lemma KeepRutCharsAppendOther(a: string, c: char)
    requires !IsRutChar(c)
    ensures KeepRutChars(a + [c]) == KeepRutChars(a)
  {
    KeepRutCharsAppend(a, [c]);
    assert [c][1..] == [];
  }

  /** Without a '0' at index 0, `clean` only filters. */
  lemma CleanNoLeadingZero(rut: string)
    requires rut == [] || rut[0] != '0'
    ensures Clean(rut) == KeepRutChars(rut)
  {
    assert rut[0..] == rut;
  }

  /** The values `clean` leaves unchanged are exactly the 0-9/k/K strings not starting with '0'. */
  lemma {:induction false} CleanFixedPoint(s: string)
    ensures Clean(s) == s <==> AllRutChars(s) && (s == [] || s[0] != '0')
  {
    if AllRutChars(s) && (s == [] || s[0] != '0') {
      CleanNoLeadingZero(s);
      KeepRutCharsOfRutString(s);
    }
    if s != [] && s[0] == '0' {
      assert |Clean(s)| < |s|;
    }
  }

  /** `clean` is idempotent exactly on the inputs whose cleaned value does not start with '0'. */
  lemma CleanIdempotentIff(s: string)
    ensures Clean(Clean(s)) == Clean(s) <==> Clean(s) == [] || Clean(s)[0] != '0'
  {
    CleanFixedPoint(Clean(s));
  }

  /** `clean` keeps the letters `k` and `K`, and removes a leading '0' although it is numeric. */
  lemma CleanKeepsLetterDropsZero(s: string)
    requires s == "05-k"
    ensures Clean(s) == "5k"
  {
    assert LeadingZeros(s) == 1 by {
      assert s[1..] == "5-k";
    }
    assert s[1..] == "5-" + "k";
    KeepRutCharsAppend("5-", "k");
    assert "5-" == "5" + ['-'];
    KeepRutCharsAppendOther("5", '-');
    KeepRutCharsOfRutString("5");
    KeepRutCharsOfRutString("k");
  }

  /** The zero run is only removed at input index 0: a separator in front protects it. */
  lemma CleanNotIdempotent(s: string)
    requires s == ".012"
    ensures Clean(s) == "012"
    ensures Clean(Clean(s)) == "12"
  {
    CleanNoLeadingZero(s);
    KeepRutCharsAppend(".", "012");
    KeepRutCharsAppendOther([], '.');
    KeepRutCharsOfRutString("012");
    assert [] + ['.'] == ".";
    assert s == "." + "012";
    assert LeadingZeros("012") == 1 by {
      assert "012"[1..] == "12";
    }
    KeepRutCharsOfRutString("12");
    assert "012"[1..] == "12";
  }

  /** `clean` drops a separator between a string and a run of 0-9/k/K characters. */
  lemma KeepAcrossSeparator(x: string, sep: char, y: string)
    requires !IsRutChar(sep) && AllRutChars(y)
    ensures KeepRutChars(x + [sep] + y) == KeepRutChars(x) + y
  {
    KeepRutCharsAppend(x + [sep], y);
    KeepRutCharsAppendOther(x, sep);
    KeepRutCharsOfRutString(y);
  }

  /** The filter keeps the run `^0+` removes: what it keeps is that run followed by `clean`'s result. */
  lemma KeepSplitsAtZeroRun(s: string)
    ensures KeepRutChars(s) == s[..LeadingZeros(s)] + Clean(s)
    ensures AllZeros(s[..LeadingZeros(s)])
  {
    var n := LeadingZeros(s);
    assert s == s[..n] + s[n..];
    KeepRutCharsAppend(s[..n], s[n..]);
    KeepRutCharsOfRutString(s[..n]);
  }

  /** A separator can only shorten the run of '0' at index 0. */
  lemma SeparatorLeadingZeros(x: string, sep: char, y: string)
    requires !IsRutChar(sep)
    ensures LeadingZeros(x + [sep] + y) <= LeadingZeros(x + y)
  {
    var s1, s2 := x + [sep] + y, x + y;
    var n1 := LeadingZeros(s1);
    assert s1[|x|] != '0';
    assert n1 <= |x|;
    assert forall i :: 0 <= i < n1 ==> s2[i] == s1[i];
  }

  /** Dropping a separator from the input changes `clean`'s result at most by '0' characters in front:
      the separator may protect zeros that would otherwise be part of the run `^0+` removes. */
  lemma CleanAcrossSeparator(x: string, sep: char, y: string)
    requires !IsRutChar(sep)
    ensures var c1, c2 := Clean(x + [sep] + y), Clean(x + y);
            && |c2| <= |c1|
            && AllZeros(c1[..|c1| - |c2|])
            && c1[|c1| - |c2|..] == c2
  {
    var s1, s2 := x + [sep] + y, x + y;
    KeepRutCharsAppend(x + [sep], y);
    KeepRutCharsAppendOther(x, sep);
    KeepRutCharsAppend(x, y);
    var k := KeepRutChars(s2);
    assert KeepRutChars(s1) == k;
    var n1, n2 := LeadingZeros(s1), LeadingZeros(s2);
    SeparatorLeadingZeros(x, sep, y);
    KeepSplitsAtZeroRun(s1);
    KeepSplitsAtZeroRun(s2);
    var c1, c2 := Clean(s1), Clean(s2);
    assert c1 == k[n1..] && c2 == k[n2..];
    assert AllZeros(k[..n2]);
    assert c1[..n2 - n1] == k[n1..n2];
    assert c1[n2 - n1..] == c2;
  }

  /** A body written with two thousands dots cleans to its digits. */
  lemma CleanDottedBody(head: string, mid: string, last: string)
    requires AllRutChars(head) && AllRutChars(mid) && AllRutChars(last)
    requires |head| > 0 && head[0] != '0'
    ensures Clean(head + ['.'] + mid + ['.'] + last) == head + mid + last
  {
    var hm := head + ['.'] + mid;
    CleanNoLeadingZero(hm + ['.'] + last);
    KeepRutCharsOfRutString(head);
    KeepAcrossSeparator(head, '.', mid);
    KeepAcrossSeparator(hm, '.', last);
  }

  /** A value written `D.DDD.DDD-C` cleans to its digits and check character. */
  lemma CleanPunctuated(head: string, mid: string, last: string, check: string)
    requires AllRutChars(head) && AllRutChars(mid) && AllRutChars(last) && AllRutChars(check)
    requires |head| > 0 && head[0] != '0'
    ensures Clean(head + ['.'] + mid + ['.'] + last + ['-'] + check) == head + mid + last + check
  {
    var body := head + ['.'] + mid + ['.'] + last;
    CleanDottedBody(head, mid, last);
    CleanNoLeadingZero(body);
    CleanNoLeadingZero(body + ['-'] + check);
    KeepAcrossSeparator(body, '-', check);
  }

  /** The worked example of the package's documentation. */
  lemma CleanExample(s: string)
    requires s == "35.114.652-4"
    ensures Clean(s) == "351146524"
  {
    var a, b, c, d := "35", "114", "652", "4";
    assert s == a + ['.'] + b + ['.'] + c + ['-'] + d;
    CleanPunctuated(a, b, c, d);
    assert a + b + c + d == "351146524";
  }

  /** The first value of the package's test of `clean`. */
  lemma CleanTestFirst(rut: string)
    requires rut == "14.961.581-4"
    ensures Clean(rut) == "149615814"
  {
    var head, mid, last, check := "14", "961", "581", "4";
    assert rut == head + ['.'] + mid + ['.'] + last + ['-'] + check && head + mid + last + check == "149615814" by {
      assert rut == "14" + ['.'] + "961" + ['.'] + "581" + ['-'] + "4";
    }
    CleanPunctuated(head, mid, last, check);
  }

  /** The second value of the package's test of `clean`: a zero after the first dot is kept. */
  lemma CleanTestSecond(rut: string)
    requires rut == "15.001.650-9"
    ensures Clean(rut) == "150016509"
  {
    var head, mid, last, check := "15", "001", "650", "9";
    assert rut == head + ['.'] + mid + ['.'] + last + ['-'] + check && head + mid + last + check == "150016509" by {
      assert rut == "15" + ['.'] + "001" + ['.'] + "650" + ['-'] + "9";
    }
    CleanPunctuated(head, mid, last, check);
  }

  /** The third value of the package's test of `clean`: a one-digit first group. */
  lemma CleanTestThird(rut: string)
    requires rut == "3.148.184-8"
    ensures Clean(rut) == "31481848"
  {
    var head, mid, last, check := "3", "148", "184", "8";
    assert rut == head + ['.'] + mid + ['.'] + last + ['-'] + check && head + mid + last + check == "31481848" by {
      assert rut == "3" + ['.'] + "148" + ['.'] + "184" + ['-'] + "8";
    }
    CleanPunctuated(head, mid, last, check);
  }
}

=== FILE: outcome.dfy ===
/** The two exceptions the RUT engine can raise, and a result type that carries them. */
module Outcome {

  datatype RutError =
    | InvalidRut       // `ValueError('"..." as RUT is invalid')`: nothing left after cleaning
    | NotANumber       // `ValueError` from `int()` on a cleaned `k` or `K`
    | IndexOutOfRange  // `IndexError` from `rut[-1]` on an empty cleaned value

  datatype Result<+T> = Success(value: T) | Failure(error: RutError)
}

=== FILE: validator.dfy ===
/** `validate` (rutpy/core/rut.py:41-74): a structural check by regular expression, then the
    check symbol recomputed by an iterative modulo-11 loop and compared with the last character. */
module Validator {
  import opened Digits
  import opened Outcome
  import opened Normalizer
  import opened Checksum

  // ---------------------------------------------------------------------------------------------
  // The pattern `^0*(\d{1,3}(\.?\d{3})*)-?([\dkK])$`, one predicate per part

  /** `(\.?\d{3})*` matched against all of `s`. */
  predicate Triples(s: string)
    decreases |s|
  {
    if s == [] then true
    else if s[0] == '.' then |s| >= 4 && AllDigits(s[1..4]) && Triples(s[4..])
    else |s| >= 3 && AllDigits(s[..3]) && Triples(s[3..])
  }

  /** `\d{lead}(\.?\d{3})*` matched against all of `s`. */
  predicate LeadThenTriples(s: string, lead: nat) {
    lead <= |s| && AllDigits(s[..lead]) && Triples(s[lead..])
  }

  /** `\d{1,3}(\.?\d{3})*` matched against all of `s`. */
  predicate DigitGroups(s: string) {
    LeadThenTriples(s, 1) || LeadThenTriples(s, 2) || LeadThenTriples(s, 3)
  }

  /** `\d{1,3}(\.?\d{3})*-?([\dkK])` matched against all of `s`: the last character is the check
      character, and what precedes it is the body, possibly followed by one dash. */
  predicate BodyDashCheck(s: string) {
    && |s| >= 2
    && IsRutChar(s[|s| - 1])
    && var rest := s[..|s| - 1];
       DigitGroups(rest) || (rest[|rest| - 1] == '-' && DigitGroups(rest[..|rest| - 1]))
  }

  /** `0*` followed by the rest of the pattern; the run of zeros may end anywhere. */
  predicate ZerosThenBody(s: string)
    decreases |s|
  {
    BodyDashCheck(s) || (|s| > 0 && s[0] == '0' && ZerosThenBody(s[1..]))
  }

  /** `re.match` of the whole pattern: `$` matches at the end of `s` or just before a final newline. */
  predicate MatchesRutPattern(s: string) {
    ZerosThenBody(s) || (|s| > 0 && s[|s| - 1] == '\n' && ZerosThenBody(s[..|s| - 1]))
  }

  predicate StartsWithZero(s: string) {
    |s| > 0 && s[0] == '0'
  }

  /** The inputs `validate` accepts: no leading '0', the pattern matches, and the last cleaned
      character is what `get_check_digit` computes for the cleaned characters before it. */
  predicate Accepts(rut: string) {
    && !StartsWithZero(rut)
    && MatchesRutPattern(rut)
    && var c := Clean(rut);
       |c| > 0 && GetCheckDigit(c[..|c| - 1]) == Success(c[|c| - 1])
  }

  // ---------------------------------------------------------------------------------------------
  // What the pattern guarantees about the cleaned value

  lemma {:induction false} TriplesKeepDigits(s: string)
    requires Triples(s)
    ensures AllDigits(KeepRutChars(s))
    decreases |s|
  {
    if s != [] {
      var g := if s[0] == '.' then 4 else 3;
      var digits := s[g - 3..g];
      TriplesKeepDigits(s[g..]);
      KeepRutCharsAppend(s[..g], s[g..]);
      KeepRutCharsOfRutString(digits);
      assert s == s[..g] + s[g..];
      if g == 4 {
        KeepRutCharsAppend([s[0]], digits);
        assert s[..g] == [s[0]] + digits;
        assert KeepRutChars([s[0]]) == [] by {
          assert [s[0]][1..] == [];
        }
      } else {
        assert s[..g] == digits;
      }
    }
  }

  lemma DigitGroupsKeep(s: string)
    requires DigitGroups(s)
    ensures var k := KeepRutChars(s); |k| >= 1 && AllDigits(k) && k[0] == s[0]
  {
    var lead := if LeadThenTriples(s, 1) then 1 else if LeadThenTriples(s, 2) then 2 else 3;
    TriplesKeepDigits(s[lead..]);
    KeepRutCharsAppend(s[..lead], s[lead..]);
    KeepRutCharsOfRutString(s[..lead]);
    assert s == s[..lead] + s[lead..];
  }

  /** The body with an optional trailing dash, as `clean` sees it. */
  lemma KeepBodyDash(rest: string)
    requires DigitGroups(rest) || (|rest| > 0 && rest[|rest| - 1] == '-' && DigitGroups(rest[..|rest| - 1]))
    ensures var k := KeepRutChars(rest); |k| >= 1 && AllDigits(k) && k[0] == rest[0]
  {
    if !DigitGroups(rest) {
      var body := rest[..|rest| - 1];
      assert rest == body + ['-'];
      KeepRutCharsAppendOther(body, '-');
      DigitGroupsKeep(body);
    } else {
      DigitGroupsKeep(rest);
    }
  }

  /** What `clean` keeps of a string the pattern's core matches: a digit body, then the check. */
  lemma KeepBodyDashCheck(p: string)
    requires BodyDashCheck(p)
    ensures var k := KeepRutChars(p);
            |k| >= 2 && k[0] == p[0] && AllDigits(k[..|k| - 1]) && IsRutChar(k[|k| - 1])
  {
    var rest, last := p[..|p| - 1], p[|p| - 1];
    assert p == rest + [last];
    KeepBodyDash(rest);
    KeepRutCharsAppend(rest, [last]);
    KeepRutCharsOfRutString([last]);
    var k := KeepRutChars(p);
    assert k == KeepRutChars(rest) + [last];
    assert k[..|k| - 1] == KeepRutChars(rest);
  }

  /** Once `validate` has rejected a leading '0' and matched the pattern, the cleaned value is a
      non-empty digit body without leading zero followed by one 0-9/k/K character, so `int(rut[:-1])`
      and `rut[-1]` cannot fail. */
  lemma CleanedShape(rut: string)
    requires !StartsWithZero(rut) && MatchesRutPattern(rut)
    ensures var c := Clean(rut);
            && |c| >= 2
            && c[0] != '0'
            && AllDigits(c[..|c| - 1])
            && IsRutChar(c[|c| - 1])
  {
    CleanNoLeadingZero(rut);
    if ZerosThenBody(rut) {
      assert BodyDashCheck(rut);
      KeepBodyDashCheck(rut);
    } else {
      var p := rut[..|rut| - 1];
      assert BodyDashCheck(p);
      assert rut == p + ['\n'];
      KeepRutCharsAppendOther(p, '\n');
      KeepBodyDashCheck(p);
      assert p[0] == rut[0];
    }
  }

  /** A lower-case 'k' check character is never accepted: the computed symbol is upper-case. */
  lemma LowerCaseKRejected(rut: string)
    requires Accepts(rut)
    ensures Clean(rut)[|Clean(rut)| - 1] != 'k'
  {
    CleanedShape(rut);
  }

  // ---------------------------------------------------------------------------------------------
  // The iterative modulo-11 loop and its agreement with the closed form of `get_check_digit`

  /** Adding a multiple of 11 leaves the residue unchanged (this and `ModOfSum` are kept apart
      from `StepResidue`, where the solver handles them poorly next to the products). */
  lemma ModAddMultiple(x: int, q: int)
    ensures (x + MODULUS * q) % MODULUS == x % MODULUS
  {
  }

  /** Reducing one summand first does not change the residue of a sum. */
  lemma ModOfSum(y: int, z: int)
    ensures (y % MODULUS + z) % MODULUS == (y + z) % MODULUS
  {
    ModAddMultiple(y % MODULUS + z, y / MODULUS);
  }

  /** The loop's weight `9 - m % 6` is congruent to minus the closed form's weight `m % 6 + 2`. */
  lemma StepResidue(x: int, d: int, m: nat)
    ensures ((x + d * Weight(m)) % MODULUS + d * (9 - m % 6)) % MODULUS == x % MODULUS
  {
    var w, u := Weight(m), 9 - m % 6;
    assert w + u == MODULUS;
    assert d * w + d * u == MODULUS * d by {
      assert d * w + d * u == d * (w + u);
    }
    ModOfSum(x + d * w, d * u);
    ModAddMultiple(x, d);
  }

  /** `str(s - 1) if s > 0 else 'K'` for the loop's final residue is the closed-form symbol. */
  lemma ResidueSymbol(total: nat)
    ensures var s := (1 - total) % MODULUS;
            (if s > 0 then DigitChar(s - 1) else 'K') == CheckSymbol(total)
  {
    var r := total % MODULUS;
    assert (1 - total) % MODULUS == (1 - r) % MODULUS by {
      assert 1 - total == (1 - r) - MODULUS * (total / MODULUS);
    }
  }

  /** One pass of the loop: the last digit still held by `t` is added with the next weight. */
  lemma LoopStep(body: string, k: nat, m: nat, total: int, s: int, t: int)
    requires AllDigits(body) && k <= |body| && t > 0
    requires t == NumberOf(body[..k])
    requires s == (1 - total + WeightedSum(body[..k], m)) % MODULUS
    ensures k > 0 && t / 10 == NumberOf(body[..k - 1])
    ensures var next := (s + (t % 10) * (9 - m % 6)) % 11;
            0 <= next < MODULUS && next == (1 - total + WeightedSum(body[..k - 1], m + 1)) % MODULUS
  {
    var prefix := body[..k];
    assert prefix[..k - 1] == body[..k - 1];
    var d := DigitValue(prefix[k - 1]);
    assert t % 10 == d && t / 10 == NumberOf(body[..k - 1]);
    StepResidue(1 - total + WeightedSum(body[..k - 1], m + 1), d, m);
  }

  /** The loop of rutpy/core/rut.py:64-73 on the body of a cleaned value: it consumes the decimal
      digits of `int(body)` from the right and yields the same symbol as `get_check_digit`. */
  method ModElevenLoop(body: string) returns (v: char)
    requires body != [] && AllDigits(body)
    ensures v == CheckDigitOf(body)
  {
    var t: int := NumberOf(body);
    var m := 0;
    var s := 1;
    ghost var k := |body|;  // the digits of `body` that `t` still holds
    ghost var total := WeightedSum(body, 0);
    assert body[..k] == body;
    while t > 0
      invariant 0 <= k <= |body| && k + m == |body|
      invariant t == NumberOf(body[..k])
      invariant 0 <= s < MODULUS
      invariant s == (1 - total + WeightedSum(body[..k], m)) % MODULUS
      decreases t
    {
      LoopStep(body, k, m, total, s, t);
      s := (s + (t % 10) * (9 - (m % 6))) % 11;
      t := t / 10;
      m := m + 1;
      k := k - 1;
    }
    ZeroValueZeroSum(body[..k], m);
    ResidueSymbol(total);
    v := if s > 0 then DigitChar(s - 1) else 'K';
  }

  /** Digits whose value is 0 are all '0' and weigh nothing. */
  lemma {:induction false} ZeroValueZeroSum(digits: string, index: nat)
    requires AllDigits(digits) && NumberOf(digits) == 0
    ensures WeightedSum(digits, index) == 0
    decreases |digits|
  {
    if digits != [] {
      ZeroValueZeroSum(digits[..|digits| - 1], index + 1);
    }
  }

  method Validate(rut: string) returns (ok: bool)
    ensures ok == Accepts(rut)
    ensures StartsWithZero(rut) ==> !ok
    ensures ok ==> MatchesRutPattern(rut)
  {
    if StartsWithZero(rut) {
      return false;
    }
    if !MatchesRutPattern(rut) {
      return false;
    }
    var c := Clean(rut);
    CleanedShape(rut);
    var body := c[..|c| - 1];
    var v := ModElevenLoop(body);
    CleanFixedPoint(body);
    ok := v == c[|c| - 1];
  }
}
